=== FILE: README.md ===
# Certificate expiry report — a Dafny model

The program checks the TLS certificates of a list of hosts. For each host it
runs `openssl s_client` and takes the issuing CA's organisation from the
`depth=1` line of the chain trace on standard error. It then runs
`openssl x509 -noout -enddate` and reads the certificate's end date from the
`notAfter=...` line. It prints a table with columns HOST, ORGANISATION
(quoted) and DAYS, the signed number of days from today to the end date.
Hosts come from the command line (`from_domains`, rows in input order) or
from a file (`from_file`, rows sorted by host and then by remaining days).

The model covers:

- the table of `src/openssl/table.rs`: rows, the three running column widths,
  the two stable orderings, and printing as a pure render to lines;
- `RemainingDays::parse` and `cmd_output` of `src/openssl/remaining_days.rs`,
  including chrono's `%Y%b%d` scanner and a proleptic Gregorian calendar;
- the text handling and the two report loops of `src/main.rs`:
  `get_organisation`, the `depth=1` line selection,
  `add_successful_parsed_remaining_days`, `process_domain_line`,
  `from_domains` and `from_file`.

A Rust panic ends the program before the table is printed, and the model
writes it as `None`. Today's date, the openssl outputs and the host list are
parameters.

Modules: `Prelude` holds Option, Ordering, IntCmp, i64 and Max. `Text` models Rust
string operations: `split` with a string pattern, `trim` on Unicode
White_Space, `.len()` in UTF-8 bytes, byte-offset slicing, `replace`, padding
in `format!` and `String::cmp`. `Calendar`, `Tables`, `StableSort`,
`TableOrder`, `Expiry`, `Organisation` and `Report` model the rest.

Two behaviours are modelled as the code has them:

- Sorting by host and then by days is not the same as sorting by days
  alone, although the later sort is easily taken to win outright. `sort_by`
  is stable, so rows with equal days come out ordered by host
  (`HostThenDays`, `HostOrderMattersOnTies`). The two orders agree only when
  no two rows share a days value (`HostOrderIrrelevantForDistinctDays`).
- The organisation and the end date are not read from structured
  certificate fields. They come from splitting openssl's text output, and
  that text splitting is what is modelled.

## Model

| member | source | states |
|---|---|---|
| Tables.NewRow | src/openssl/table.rs:7-11 | a data row keeps host and days and holds the organisation between two double quotes |
| Tables.HeaderRow | src/openssl/table.rs:13-15 | the header titles give starting widths of 5, 13 and 5 bytes |
| Tables.NewTable | src/openssl/table.rs:37-39 | a new table has no rows and all widths 0 |
| Tables.Add | src/openssl/table.rs:41-65 | the row is appended; a header resets each width to its title's byte length plus one; a data row raises each width to the field's byte length plus one when that is larger |
| Tables.AddKeepsFits | src/openssl/table.rs:41-65 | adding a data row, or the header to an empty table, keeps every stored field strictly narrower than its column |
| Tables.AddAll | src/openssl/table.rs:41-65 | adding rows one by one appends them, in order, after the rows already there |
| Tables.AddAllWidths | src/openssl/table.rs:50-62 | after adding data rows each width is the larger of its old value and the widest new field plus one |
| Tables.AddAllKeepsFits | src/openssl/table.rs:50-62 | adding data rows keeps every field narrower than its column |
| Tables.BuildWidths | src/openssl/table.rs:37-65 | new, then the header, then data rows: the rows are the header followed by the data, each width is max(title, widest field) plus one, and every field fits |
| Tables.StartTable | src/main.rs:70-71 | a new table with the header added holds just the header, has widths 5, 13 and 5, and every field fits |
| Tables.LateHeaderResetsWidths | src/openssl/table.rs:43-48 | a header added late resets the widths to 5/13/5, so an earlier row with a host of 5 or more bytes no longer fits |
| Tables.HostWidth | src/openssl/table.rs:51-53 | the host width exceeds every host's byte length and is one more than some host's |
| Tables.OrgWidth | src/openssl/table.rs:54-56 | the organisation width exceeds every organisation's byte length and is one more than some organisation's |
| Tables.DaysWidth | src/openssl/table.rs:57-59 | the days width exceeds every days text's byte length and is one more than some days text's |
| Tables.RenderRow | src/openssl/table.rs:17-26 | a printed line's length is the padded host, organisation and days columns plus two separating spaces |
| Tables.Render | src/openssl/table.rs:91-95 | one line per row, in row order, each laid out with the table's host and organisation widths |
| Tables.RenderIgnoresDaysWidth | src/openssl/table.rs:91-95 | the days column width kept by the table plays no part in what is printed |
| Tables.RenderedColumns | src/openssl/table.rs:20-23 | in a line for a row that fits, the fields sit at fixed offsets, are followed by padding and a space, and trimming each column gives the field back |
| Tables.PaddedColumn | src/openssl/table.rs:20 | a field narrower than its column pads to exactly the column width, ends in a space and trims back to itself |
| StableSort.SortBy | src/openssl/table.rs:68 | the result is a permutation of the input, sorted, and keeps the input order of elements that compare equal |
| StableSort.StableSortUnique | src/openssl/table.rs:68 | any two sorted, stable arrangements of the same input are equal, so the result does not depend on which stable sort is used |
| StableSort.StableKeepsOrder | src/openssl/table.rs:80 | a stable sort of an input sorted by a second order keeps equal elements in that second order |
| StableSort.SmallClassKept | src/openssl/table.rs:80 | an equivalence class with at most one element is unchanged by any permutation |
| TableOrder.HostOrderIsTotalPreorder | src/openssl/table.rs:68-75 | the host closure is antisymmetric, reflexive and transitive, as `sort_by` requires |
| TableOrder.DaysOrderIsTotalPreorder | src/openssl/table.rs:80-87 | the days closure is a total preorder |
| TableOrder.CompareHosts | src/openssl/table.rs:68-75 | two rows tie under the host closure exactly when both are headers or both are data rows with the same host |
| TableOrder.CompareDays | src/openssl/table.rs:80-87 | two rows tie under the days closure exactly when both are headers or both are data rows with the same days |
| TableOrder.OrderByHost | src/openssl/table.rs:67-77 | the same rows, headers first, data rows in ascending host order, ties kept in input order, widths untouched |
| TableOrder.OrderByRemainingDays | src/openssl/table.rs:79-89 | the same rows, headers first, data rows in ascending days, ties kept in input order, widths untouched |
| TableOrder.OrderByHostUnique | src/openssl/table.rs:67-77 | any host-sorted stable arrangement of the rows is the one `order_by_host` gives |
| TableOrder.OrderByRemainingDaysUnique | src/openssl/table.rs:79-89 | any days-sorted stable arrangement of the rows is the one `order_by_remaining_days` gives |
| TableOrder.HostThenDays | src/main.rs:88 | after sorting by host then by days: headers first, data rows by days, and rows with equal days ordered by host |
| TableOrder.HostOrderIrrelevantForDistinctDays | src/main.rs:88 | when no two rows share a days value, sorting by host first changes nothing |
| TableOrder.HostOrderMattersOnTies | src/main.rs:88 | for any two data rows with equal days added out of host order, sorting by days alone keeps them in that order, while sorting by host first puts them alphabetically |
| Expiry.CmdOutput | src/openssl/remaining_days.rs:54-57 | standard output is kept verbatim; standard error is trimmed: it is a slice of the captured text with only whitespace before and after it, and it ends up empty exactly when it held only whitespace |
| Expiry.DigitRun | src/openssl/remaining_days.rs:27 | counts at most `max` leading characters, all of them digits, and stops only at a non-digit or the end |
| Expiry.Number | src/openssl/remaining_days.rs:27 | a scanned number is non-negative, consumes at least `min` characters and leaves a suffix of the text |
| Expiry.YearField | src/openssl/remaining_days.rs:27 | `%Y` consumes at least one character after leading whitespace and leaves a suffix; a year after `-` is not positive, and an unsigned year has at most four digits, so it is below 10000 |
| Expiry.YearDigits | src/openssl/remaining_days.rs:27 | on text starting solid: a signed year of any length or an unsigned one of up to four digits, leaving a proper suffix |
| Expiry.DayField | src/openssl/remaining_days.rs:27 | `%d` consumes at least one character, leaves a suffix, and gives a day from 0 to 99 |
| Expiry.MonthField | src/openssl/remaining_days.rs:27 | `%b` consumes exactly three characters and gives a month from 1 to 12 |
| Expiry.MonthOfName | src/openssl/remaining_days.rs:27 | a recognised month name gives a month number from 1 to 12 |
| Expiry.ParseDate | src/openssl/remaining_days.rs:27 | a date chrono accepts is a valid calendar date within chrono's year range |
| Expiry.EndDate | src/openssl/remaining_days.rs:16-24 | an end date read from the output is a valid date |
| Expiry.Parse | src/openssl/remaining_days.rs:15-29 | a result exists exactly when the end date can be read; it is positive, zero or negative exactly when the end date is after, equal to or before today |
| Expiry.DaysBetweenFitsI64 | src/openssl/remaining_days.rs:27-28 | the day difference of two representable dates fits an i64, and its sign says which is later |
| Expiry.ParseWithoutEquals | src/openssl/remaining_days.rs:16-19 | output without `=`, such as the empty output of a failed openssl run, panics |
| Expiry.TooFewWordsPanics | src/openssl/remaining_days.rs:19-22 | a date part with fewer than four non-empty words panics at `datetime[3]` |
| Expiry.ImpossibleEnddateLinePanics | src/openssl/remaining_days.rs:15-27 | an `-enddate` line naming a day the calendar does not have, such as Feb 29 of a common year, panics at chrono's `unwrap` |
| Expiry.ParseTomorrow | src/openssl/remaining_days.rs:26-28 | a day later, one day fewer remains |
| Expiry.MonthAbbrev | src/openssl/remaining_days.rs:27 | openssl's month abbreviation is three characters that `%b` maps back to the month |
| Expiry.NumberOfNumeral | src/openssl/remaining_days.rs:27 | a decimal numeral followed by a non-digit is scanned back as its value |
| Expiry.YearFieldOfNumeral | src/openssl/remaining_days.rs:27 | `%Y` reads back a year of at most four digits |
| Expiry.MonthFieldOfAbbrev | src/openssl/remaining_days.rs:27 | `%b` reads back the abbreviation of any month |
| Expiry.DayFieldOfNumeral | src/openssl/remaining_days.rs:27 | `%d` reads back a day of at most two digits |
| Expiry.ParseDateRoundTrip | src/openssl/remaining_days.rs:27 | year, month abbreviation and day written without padding are read back by chrono as the same date when that day exists, and rejected otherwise |
| Expiry.DateWordsFiltered | src/openssl/remaining_days.rs:20 | dropping empty words from openssl's date leaves month, day, time, year, GMT, whether the day is padded or not |
| Expiry.DateWordsSplit | src/openssl/remaining_days.rs:19 | splitting openssl's joined date words at spaces gives the words back |
| Expiry.LineParts | src/openssl/remaining_days.rs:16-17 | trimming the `notAfter=...` line and splitting at `=` gives the key and the date part |
| Expiry.EndDateOfEnddateLine | src/openssl/remaining_days.rs:15-27 | the end date read from openssl's `-enddate` line is the certificate's end date when that day exists; otherwise none is read |
| Expiry.ParseEnddateLine | src/openssl/remaining_days.rs:15-29 | for a certificate ending on day d, parse returns the days from today to d, whatever the time of day |
| Organisation.GetOrganisation | src/main.rs:161-178 | the result never contains `"`; a line with neither `O = ` nor `O=` panics; a line with only the compact form always gives a result; when `O = ` splits the line, a text before the next ` =` shorter than 4 bytes panics, and an ASCII one of at least 4 characters gives a result |
| Organisation.ShortSpacedSegmentPanics | src/main.rs:172-174 | when another spaced attribute follows `O = `, a text before its ` =` shorter than 4 bytes panics at the slice |
| Organisation.EmptySpacedOrganisationPanics | src/main.rs:172-174 | the line `depth=1 O = , C = US` panics: the text before ` =` is `, C`, only 3 bytes |
| Organisation.FromPieces | src/main.rs:172-177 | the result never contains `"`; without a second piece it panics; with no byte cut it panics exactly when there is no second piece; a cut piece shorter than the cut in bytes panics, and an ASCII one at least as long as the cut gives a result |
| Organisation.SpacedOrganisation | src/main.rs:159-178 | for a spaced line `... O = org, CN = value` the result is org without quotes |
| Organisation.LetsEncryptIssuer | src/main.rs:159-160 | the example line `depth=1 C = US, O = Let's Encrypt, CN = R3` gives `Let's Encrypt` |
| Organisation.LastAttributeLosesFourBytes | src/main.rs:172-174 | when `O` is the last spaced attribute, the last 4 bytes of its own value are dropped |
| Organisation.ShortLastAttributePanics | src/main.rs:174 | when `O` is last and its value is shorter than 4 bytes, the slice panics |
| Organisation.CompactOrganisation | src/main.rs:167-172 | for a compact line `... O=org,...` the result is org, up to the first comma, without quotes |
| Organisation.DepthOneLines | src/main.rs:153 | the filter keeps no more lines than it is given |
| Organisation.DepthOneLinesMembers | src/main.rs:153 | the lines kept are exactly the lines that contain `depth=1` |
| Organisation.DepthOneLinesEmpty | src/main.rs:153 | nothing is kept exactly when no line contains `depth=1` |
| Organisation.Organisations | src/main.rs:154 | `get_organisation` applied to each kept line, in order |
| Organisation.AssignEach | src/main.rs:154 | the `for_each` panics exactly when one of its calls panics; otherwise the last assignment wins, or the initial value remains |
| Organisation.NoDepthOneLineNoOrganisation | src/main.rs:147-156 | without a `depth=1` line the organisation is the empty string |
| Organisation.OrganisationPanics | src/main.rs:147-156 | reading the organisation panics exactly when `get_organisation` panics on some `depth=1` line |
| Organisation.OrganisationOfLastDepthOneLine | src/main.rs:147-156 | otherwise the organisation is that of the last `depth=1` line |
| Organisation.Lines | src/main.rs:151-152 | the lines are at least one, join back to standard error with line feeds, and hold no line feed |
| Organisation.OrganisationFromStderr | src/main.rs:147-156 | empty standard error gives the empty organisation, and an organisation read never contains `"` |
| Report.ProcessDomainLine | src/main.rs:106-119 | succeeds exactly when the organisation can be read; carries the host, the organisation and the `-enddate` output, whose standard error is blank exactly when it held only whitespace |
| Report.AddSuccessful | src/main.rs:91-104 | non-empty standard error leaves the table alone and returns true; otherwise it panics exactly when the end date cannot be read, and else appends the host's quoted row and returns false; either way the rows already there stay in front and at most one is added |
| Report.OutcomeOf | src/main.rs:91-119 | a host that gets a row gets a data row for that host |
| Report.AddedRows | src/main.rs:91-104 | the rows added for hosts are all data rows |
| Report.StepOutcome | src/main.rs:91-119 | processing a host and adding its result panics, skips or adds a row exactly as the host's outcome says |
| Report.AddedRowsStep | src/main.rs:125-130 | a list of hosts is free of panics exactly when its first host and the rest are |
| Report.AddOutcome | src/main.rs:125-130 | adding the first host's outcome and then the rest of the hosts' rows adds all of their rows |
| Report.DomainsLoop | src/main.rs:125-130 | the `from_domains` loop panics exactly when some host panics, and otherwise adds the hosts' rows in input order |
| Report.JoinLoop | src/main.rs:80-85 | the join loop panics when any task panicked; otherwise the rows already present stay in front and each result adds at most one row |
| Report.JoinLoopAddsRows | src/main.rs:80-85 | the `from_file` join loop over the results of the spawned tasks does the same |
| Report.Results | src/main.rs:75-78 | one task result per line of the host file, in file order |
| Report.FromDomains | src/main.rs:121-133 | a table is printed exactly when no host panics: the header, then one row per successful host in input order, with widths max(title, widest field) plus one, and every field fitting |
| Report.FromFile | src/main.rs:66-89 | `from_file` panics in the same cases as `from_domains` and otherwise prints the same rows sorted: headers first, data rows by days, rows with equal days by host |
| Report.OneRowPerCleanRun | src/main.rs:91-104 | when nothing panics there is one data row per host whose `-enddate` standard error is blank |
| Text.Split | src/main.rs:163 | the pieces are at least one, join back to the text, and none contains the pattern |
| Text.CharWithoutMatch | src/main.rs:152 | a text in which a one-character pattern does not occur does not hold that character |
| Text.SplitCount | src/main.rs:167 | a split gives exactly one piece exactly when the pattern does not occur |
| Text.SplitInTwo | src/main.rs:163 | a text with one occurrence of the pattern splits into the part before and the part after |
| Text.SplitJoin | src/openssl/remaining_days.rs:19 | joining pieces that avoid a one-character separator and splitting again gives the pieces back |
| Text.DropEmpty | src/openssl/remaining_days.rs:20 | holds no empty piece, holds a text exactly when some non-empty piece is that text, and has no more pieces than it is given |
| Text.DropEmptyAppend | src/openssl/remaining_days.rs:20 | filtering a concatenation filters each part and keeps them in order |
| Text.DropEmptyOne | src/openssl/remaining_days.rs:20 | a single piece is kept exactly when it is not empty |
| Text.ByteLen | src/openssl/table.rs:44 | the UTF-8 byte length lies between the character count and four times it |
| Text.ByteLenOfAscii | src/openssl/table.rs:44 | the byte length equals the character count exactly when the text is ASCII |
| Text.DropTrailingBytes | src/main.rs:174 | a successful cut is a prefix whose byte length is n less |
| Text.DropTrailingBytesOfAscii | src/main.rs:174 | on ASCII text, dropping at most its length in bytes succeeds |
| Text.DropTrailingBytesOfSuffix | src/main.rs:174 | dropping the byte length of a suffix gives the prefix back |
| Text.Trim | src/openssl/remaining_days.rs:16 | the result is the slice of the text that starts where `trim_start` stops, with only whitespace before and after it; it has no whitespace at either end, and is empty exactly when the text was all whitespace |
| Text.TrimFacts | src/openssl/remaining_days.rs:16 | `trim_end` after `trim_start` removes only whitespace, from the two ends, and leaves solid ends |
| Text.TrimmedOf | src/openssl/remaining_days.rs:16 | any pair of results meeting the `trim_start` and `trim_end` promises cuts only whitespace off the two ends of the text |
| Text.TrimEnd | src/openssl/remaining_days.rs:16 | the result is a prefix of the text that ends solid, and only whitespace was removed |
| Text.TrimStart | src/openssl/remaining_days.rs:27 | the result is a suffix of the text, starts solid, and only whitespace was removed |
| Text.TrimDropsTrailing | src/openssl/remaining_days.rs:16 | trimming a solid text followed by whitespace gives the text |
| Text.RemoveAll | src/main.rs:176 | no `"` remains, every other character keeps its count, and a text without `"` is unchanged |
| Text.RemoveAllAppend | src/main.rs:176 | removing quotes from a concatenation removes them from each part and keeps the parts in order |
| Text.RemoveAllOne | src/main.rs:176 | a single character is kept exactly when it is not the one removed |
| Text.PadRight | src/openssl/table.rs:20 | the text padded on the right with spaces to the width, or unchanged when it is wider |
| Text.UnpadRoundTrip | src/openssl/table.rs:20 | trimming the padding of a text that ends solid gives the text back |
| Text.IntToStringRoundTrip | src/openssl/table.rs:57 | the decimal text of an i64 reads back as the number |
| Text.IntToString | src/openssl/table.rs:57 | the text starts with `-` exactly for negative numbers, followed by digits without a leading zero; non-negative numbers are all digits |
| Text.StrCmpReverse | src/openssl/table.rs:73 | comparing the other way round reverses the result |
| Text.StrLeTransitive | src/openssl/table.rs:73 | string order is transitive |
| Text.StrCmp | src/openssl/table.rs:73 | two strings compare Equal exactly when they are equal, a proper prefix is Less, and otherwise the first differing character decides |
| Text.Find | src/main.rs:153 | the leftmost occurrence of the pattern: there is a match at the index found and none before it, and `None` means no match anywhere |
| Text.Contains | src/main.rs:153 | holds exactly when the pattern occurs at some index |
| Text.FindFrom | src/main.rs:153 | the leftmost occurrence at or after a start index: a match there and none between, or no match from the start index on |
| Text.FindIsFirstMatch | src/main.rs:153 | a match with none before it is the one `find` reports |
| Text.SplitWithoutPattern | src/main.rs:167-168 | text without the pattern splits into itself alone, which is how a line without `O = ` gives one piece |
| Text.SplitAtPattern | src/main.rs:163 | text splits at the first occurrence of the pattern when nothing before it matches |
| Text.SplitWithoutSeparator | src/openssl/remaining_days.rs:19 | text without the separator character splits into itself alone |
| Text.SplitAtFirst | src/openssl/remaining_days.rs:17 | text splits at the first occurrence of a separator character |
| Text.Utf8Width | src/openssl/table.rs:44 | a character takes one to four UTF-8 bytes, and one exactly when it is ASCII |
| Text.NatToString | src/openssl/table.rs:57 | the decimal text of a natural number is digits only, with a leading zero only for zero |
| Text.DigitsValueBound | src/openssl/remaining_days.rs:27 | a numeral of n digits is below 10 to the n |
| Calendar.NextDayIsOneDayLater | src/openssl/remaining_days.rs:27-28 | the next day is one day number later, valid below the last year, and after the day |
| Calendar.DaysBetween | src/openssl/remaining_days.rs:27-28 | the day difference is zero, positive or negative exactly when the dates are equal, in order or reversed |
| Calendar.DayNumberOrder | src/openssl/remaining_days.rs:27-28 | day numbers of valid dates are equal exactly for equal dates and smaller exactly for earlier dates |
| Calendar.IsValid | src/openssl/remaining_days.rs:27 | a date chrono can represent has a day from 1 to 31, and February 29 only in a leap year |
| Calendar.BeforeMeansSmaller | src/openssl/remaining_days.rs:27-28 | an earlier date has a smaller day number |
| Calendar.DayNumberBounds | src/openssl/remaining_days.rs:27-28 | day numbers of representable dates lie within ±100,000,000 |

## Left out

- Running `openssl` and `sh`, temporary files, logging, the tokio tasks and the
  command line (`main`, options, exit codes, the file and directory checks)
  are not modelled. Their outputs are parameters: `HostRun` holds what the
  two openssl runs wrote, and `from_file` gets the list of hosts.
- Reading the host file: an I/O error from `lines()` (the `expect` in
  `process_domain_line`) and the `unwrap` of `File::open` are not modelled.
- `String::from_utf8_lossy`: the outputs are already text.
- The clock: `chrono::Local::now()` and its `%Y%m%d` format-and-parse round
  trip are replaced by a valid date `today` passed in. That round trip is the
  identity for the years a clock can show.
- The chrono version is not pinned. The `%Y%b%d` scanner follows chrono 0.4's rules. These are: leading
  whitespace is allowed before numbers; a year is either a signed number of
  any length or up to four digits; a month is three letters in any case; a
  day is one or two digits; nothing may follow; the year lies within
  -262144 to 262143.
- Expiry.ParseDateRoundTrip: covers only years 0 to 9999, the years openssl
  prints as four digits or fewer.
- chrono's `num_days` on a duration cannot overflow for representable dates
  (`DaysBetweenFitsI64`), so no overflow branch is modelled.
- Panics are `None`, so a panic in one task and a panic in the main loop look
  the same. Either way no table is printed.
- Tables.RenderRow: `println!` itself, with its newline and output stream, is
  not modelled; rendering produces the lines as strings.
- Column widths in `usize` cannot overflow for strings that fit in memory, so
  they are unbounded `nat`s.

=== FILE: calendar.dfy ===
/** Proleptic Gregorian calendar dates, as chrono's `NaiveDate`, and the
    whole-day difference `(to - from).num_days()`. */
module Calendar {

  datatype Date = Date(year: int, month: int, day: int)

  /** The year range `NaiveDate` supports. */
  const MinYear: int := -262144
  const MaxYear: int := 262143

  predicate IsLeapYear(y: int) {
    y % 4 == 0 && (y % 100 != 0 || y % 400 == 0)
  }

  function DaysInYear(y: int): int {
    if IsLeapYear(y) then 366 else 365
  }

  function DaysInMonth(y: int, m: int): int
    requires 1 <= m <= 12
  {
    if m == 2 then (if IsLeapYear(y) then 29 else 28)
    else if m == 4 || m == 6 || m == 9 || m == 11 then 30
    else 31
  }

  /** A date `NaiveDate` can represent: a day of 1 to 31, and February 29
      only in a leap year. */
  predicate IsValid(d: Date)
    ensures IsValid(d) ==> 1 <= d.day <= 31
    ensures IsValid(d) && d.month == 2 ==> d.day <= 29 && (d.day == 29 ==> IsLeapYear(d.year))
  {
    && MinYear <= d.year <= MaxYear
    && 1 <= d.month <= 12
    && 1 <= d.day <= DaysInMonth(d.year, d.month)
  }

  /** Days of year `y` before the first of month `m`. */
  function DaysBeforeMonth(y: int, m: int): int
    requires 1 <= m <= 12
  {
    var leap := if m > 2 && IsLeapYear(y) then 1 else 0;
    leap + (
      if m == 1 then 0 else if m == 2 then 31 else if m == 3 then 59
      else if m == 4 then 90 else if m == 5 then 120 else if m == 6 then 151
      else if m == 7 then 181 else if m == 8 then 212 else if m == 9 then 243
      else if m == 10 then 273 else if m == 11 then 304 else 334)
  }

  /** Leap years among 1..y (negated count for y < 0; `/` rounds down here
      because the divisors are positive). */
  function LeapYearsThrough(y: int): int {
    y / 4 - y / 100 + y / 400
  }

  /** Days from 1 January of year 1 to 1 January of year `y`. */
  function DaysBeforeYear(y: int): int {
    365 * (y - 1) + LeapYearsThrough(y - 1)
  }

  /** Days since 1 January of year 1 (0 on that date, negative before it). */
  function DayNumber(d: Date): int
    requires 1 <= d.month <= 12
  {
    DaysBeforeYear(d.year) + DaysBeforeMonth(d.year, d.month) + d.day - 1
  }

  /** `(to - from).num_days()` for two `NaiveDate`s: zero exactly on the same
      date, positive exactly when `to` is later and negative exactly when it
      is earlier. */
  function DaysBetween(from: Date, to: Date): (r: int)
    requires IsValid(from) && IsValid(to)
    ensures r == 0 <==> from == to
    ensures r > 0 <==> Before(from, to)
    ensures r < 0 <==> Before(to, from)
  {
    DayNumberOrder(from, to);
    DayNumber(to) - DayNumber(from)
  }

  /** The calendar's successor of a date. */
  function NextDay(d: Date): Date
    requires IsValid(d)
  {
    if d.day < DaysInMonth(d.year, d.month) then Date(d.year, d.month, d.day + 1)
    else if d.month < 12 then Date(d.year, d.month + 1, 1)
    else Date(d.year + 1, 1, 1)
  }

  /** Strictly earlier in the calendar (by year, then month, then day). */
  predicate Before(a: Date, b: Date) {
    a.year < b.year
    || (a.year == b.year && a.month < b.month)
    || (a.year == b.year && a.month == b.month && a.day < b.day)
  }

  // ---------------------------------------------------------------------------
  // Day-number facts

  /** Each year contributes exactly its own length, leap days included. */
  lemma YearStep(y: int)
    ensures DaysBeforeYear(y + 1) == DaysBeforeYear(y) + DaysInYear(y)
  {
    FloorStep(y, 4);
    FloorStep(y, 100);
    FloorStep(y, 400);
  }

  /** Stepping `y` by one moves `y / k` by one exactly at multiples of `k`. */
  lemma FloorStep(y: int, k: int)
    requires k > 0
    ensures y / k - (y - 1) / k == if y % k == 0 then 1 else 0
  {
    var q, r := (y - 1) / k, (y - 1) % k;
    if r == k - 1 {
      DivModUnique(y, k, q + 1, 0);
    } else {
      DivModUnique(y, k, q, r + 1);
    }
  }

  lemma DivModUnique(x: int, k: int, q: int, r: int)
    requires k > 0 && 0 <= r < k && x == k * q + r
    ensures x / k == q && x % k == r
  {
    var d := q - x / k;
    assert k * d == x % k - r;
  }

  /** Each month contributes exactly its own length. */
  lemma MonthStep(y: int, m: int)
    requires 1 <= m < 12
    ensures DaysBeforeMonth(y, m + 1) == DaysBeforeMonth(y, m) + DaysInMonth(y, m)
  {
  }

  /** The months of a year add up to the year's length. */
  lemma LastMonth(y: int)
    ensures DaysBeforeMonth(y, 12) + DaysInMonth(y, 12) == DaysInYear(y)
  {
  }

  /** The successor of a date is one day later, across month ends, year ends
      and 29 February alike, and stays representable below the last year. */
  lemma {:induction false} NextDayIsOneDayLater(d: Date)
    requires IsValid(d)
    ensures DayNumber(NextDay(d)) == DayNumber(d) + 1
    ensures d.year < MaxYear ==> IsValid(NextDay(d))
    ensures Before(d, NextDay(d))
  {
    if d.day == DaysInMonth(d.year, d.month) {
      if d.month < 12 {
        MonthStep(d.year, d.month);
      } else {
        YearStep(d.year);
        LastMonth(d.year);
      }
    }
  }

  /** A date's day number falls inside its year. */
  lemma WithinYear(d: Date)
    requires IsValid(d)
    ensures DaysBeforeYear(d.year) <= DayNumber(d) < DaysBeforeYear(d.year) + DaysInYear(d.year)
  {
    YearStep(d.year);
  }

  lemma {:induction false} DaysBeforeYearMonotone(y1: int, y2: int)
    requires y1 <= y2
    ensures DaysBeforeYear(y1) <= DaysBeforeYear(y2)
    decreases y2 - y1
  {
    if y1 < y2 {
      YearStep(y1);
      DaysBeforeYearMonotone(y1 + 1, y2);
    }
  }

  /** An earlier date has a smaller day number. */
  lemma BeforeMeansSmaller(a: Date, b: Date)
    requires IsValid(a) && IsValid(b) && Before(a, b)
    ensures DayNumber(a) < DayNumber(b)
  {
    if a.year < b.year {
      WithinYear(a);
      WithinYear(b);
      YearStep(a.year);
      DaysBeforeYearMonotone(a.year + 1, b.year);
    } else if a.month < b.month {
      assert DaysBeforeMonth(a.year, a.month) + DaysInMonth(a.year, a.month)
          <= DaysBeforeMonth(a.year, b.month);
    }
  }

  /** Day numbers order valid dates as the calendar does, and tell them
      apart. */
  lemma DayNumberOrder(a: Date, b: Date)
    requires IsValid(a) && IsValid(b)
    ensures DayNumber(a) == DayNumber(b) <==> a == b
    ensures DayNumber(a) < DayNumber(b) <==> Before(a, b)
    ensures DayNumber(b) < DayNumber(a) <==> Before(b, a)
  {
    if Before(a, b) {
      BeforeMeansSmaller(a, b);
    } else if Before(b, a) {
      BeforeMeansSmaller(b, a);
    }
  }

  /** Day numbers of representable dates are far inside the `i64` range. */
  lemma DayNumberBounds(d: Date)
    requires IsValid(d)
    ensures -100_000_000 <= DayNumber(d) <= 100_000_000
  {
    WithinYear(d);
  }
}

=== FILE: expiry.dfy ===
/** The certificate expiry of one host: the output of `openssl x509 -noout
    -enddate` captured by `cmd_output`, and `RemainingDays::parse`, which
    reads the end date from that output with chrono's `%Y%b%d` format and
    counts the days from today to it. */
module Expiry {
  import opened Prelude
  import opened Text
  import opened Calendar

  /** `RemainingDays`: the openssl output and the host it was run for. */
  datatype RemainingDays = RemainingDays(stdout: string, stderr: string, organisation: string, domain: string)

  /** `cmd_output` once the process has run: standard output is kept as is,
      standard error is trimmed: only the whitespace around it is dropped,
      so it is empty exactly when openssl wrote nothing but whitespace to it. */
  function CmdOutput(stdout: string, stderr: string, organisation: string, domain: string): (r: RemainingDays)
    ensures r.stdout == stdout && r.organisation == organisation && r.domain == domain
    ensures exists a: nat, b: nat :: TrimmedAt(stderr, r.stderr, a, b)
    ensures r.stderr == [] <==> forall k :: 0 <= k < |stderr| ==> IsWhitespace(stderr[k])
    ensures r.stderr == [] || (!IsWhitespace(r.stderr[0]) && !IsWhitespace(r.stderr[|r.stderr| - 1]))
  {
    RemainingDays(stdout, Trim(stderr), organisation, domain)
  }

  // ---------------------------------------------------------------------------
  // chrono's scanner for "%Y%b%d"

  /** A value read from the front of a text and the text after it. */
  datatype Scanned = Scanned(value: int, rest: string)

  /** The number of leading digits of `s`, counting at most `max`. */
  function DigitRun(s: string, max: nat): (n: nat)
    ensures n <= max && n <= |s|
    ensures AllDigits(s[..n])
    ensures n < max && n < |s| ==> !IsDigit(s[n])
  {
    if max == 0 || s == [] || !IsDigit(s[0]) then 0
    else
      var n := 1 + DigitRun(s[1..], max - 1);
      assert s[..n] == [s[0]] + s[1..][..n - 1];
      n
  }

  /** chrono's `scan::number(s, min, max)`: between `min` and `max` leading
      digits, read as a decimal number. */
  function Number(s: string, min: nat, max: nat): (r: Option<Scanned>)
    ensures r.Some? ==> r.value.value >= 0 && |r.value.rest| <= |s| - min
    ensures r.Some? ==> r.value.rest == s[|s| - |r.value.rest|..]
    ensures r.Some? ==> |s| - |r.value.rest| <= max && r.value.value < Pow10(|s| - |r.value.rest|)
  {
    var n := DigitRun(s, max);
    if n < min then None
    else
      DigitsValueBound(s[..n]);
      Some(Scanned(DigitsValue(s[..n]), s[n..]))
  }

  /** `%Y`: after leading whitespace, a sign followed by any number of digits,
      or else at most four digits. */
  function YearField(s: string): (r: Option<Scanned>)
    ensures r.Some? ==> TrimStart(s) != [] && |r.value.rest| < |TrimStart(s)|
    ensures r.Some? ==> r.value.rest == s[|s| - |r.value.rest|..]
    ensures r.Some? && TrimStart(s)[0] == '-' ==> r.value.value <= 0
    ensures r.Some? && TrimStart(s)[0] != '-' && TrimStart(s)[0] != '+' ==> 0 <= r.value.value < 10000
  {
    var t := TrimStart(s);
    YearDigitsOfSuffix(s, t);
    YearDigits(t)
  }

  /** What `YearDigits` leaves of a suffix of `s` is a suffix of `s`. */
  lemma YearDigitsOfSuffix(s: string, t: string)
    requires |t| <= |s| && t == s[|s| - |t|..]
    ensures var r := YearDigits(t);
      r.Some? ==> t != [] && |r.value.rest| < |t| && r.value.rest == s[|s| - |r.value.rest|..]
  {
    var r := YearDigits(t);
    if r.Some? {
      SuffixOfSuffix(s, t, t, r.value.rest);
    }
  }

  /** `%Y` once the whitespace is skipped. */
  function YearDigits(t: string): (r: Option<Scanned>)
    ensures r.Some? ==> t != [] && |r.value.rest| < |t| && r.value.rest == t[|t| - |r.value.rest|..]
    ensures r.Some? && t[0] == '-' ==> r.value.value <= 0
    ensures r.Some? && t[0] != '-' && t[0] != '+' ==> 0 <= r.value.value < 10000
  {
    if |t| > 0 && (t[0] == '-' || t[0] == '+') then
      match Number(t[1..], 1, |t|)
      case None => None
      case Some(Scanned(v, rest)) =>
        SuffixOfSuffix(t, t, t[1..], rest);
        Some(Scanned(if t[0] == '-' then 0 - v else v, rest))
    else
      match Number(t, 1, 4)
      case None => None
      case Some(Scanned(v, rest)) =>
        Pow10Monotone(|t| - |rest|, 4);
        assert Pow10(4) == 10000;
        Some(Scanned(v, rest))
  }

  /** A suffix of a suffix of `s` is a suffix of `s`. */
  lemma SuffixOfSuffix(s: string, t: string, u: string, w: string)
    requires |t| <= |s| && t == s[|s| - |t|..]
    requires |u| <= |t| && u == t[|t| - |u|..]
    requires |w| <= |u| && w == u[|u| - |w|..]
    ensures w == s[|s| - |w|..]
  {
  }

  /** ASCII lower case, which is what setting bit 5 of a letter's byte does. */
  function Lower(c: char): char {
    if 'A' <= c <= 'Z' then (c as int + 32) as char else c
  }

  /** The month whose English abbreviation, in lower case, is `name`. */
  function MonthOfName(name: string): (m: Option<int>)
    ensures m.Some? ==> 1 <= m.value <= 12
  {
    if name == "jan" then Some(1) else if name == "feb" then Some(2)
    else if name == "mar" then Some(3) else if name == "apr" then Some(4)
    else if name == "may" then Some(5) else if name == "jun" then Some(6)
    else if name == "jul" then Some(7) else if name == "aug" then Some(8)
    else if name == "sep" then Some(9) else if name == "oct" then Some(10)
    else if name == "nov" then Some(11) else if name == "dec" then Some(12)
    else None
  }

  /** `%b`: exactly three letters naming a month, in any case. */
  function MonthField(s: string): (r: Option<Scanned>)
    ensures r.Some? ==> |s| >= 3 && 1 <= r.value.value <= 12 && r.value.rest == s[3..]
  {
    if |s| < 3 then None
    else
      match MonthOfName([Lower(s[0]), Lower(s[1]), Lower(s[2])])
      case None => None
      case Some(m) => Some(Scanned(m, s[3..]))
  }

  /** `%d`: after leading whitespace, one or two digits. */
  function DayField(s: string): (r: Option<Scanned>)
    ensures r.Some? ==> 0 <= r.value.value < 100
    ensures r.Some? ==> |r.value.rest| < |s| && r.value.rest == s[|s| - |r.value.rest|..]
  {
    var t := TrimStart(s);
    var r := Number(t, 1, 2);
    if r.Some? then
      Pow10Monotone(|t| - |r.value.rest|, 2);
      assert Pow10(2) == 100;
      r
    else r
  }

  /** `NaiveDate::parse_from_str(text, "%Y%b%d")`: year, month and day read in
      turn, nothing may follow, and the result must be a date `NaiveDate`
      can represent. */
  function ParseDate(text: string): (r: Option<Date>)
    ensures r.Some? ==> IsValid(r.value)
  {
    match YearField(text)
    case None => None
    case Some(Scanned(year, afterYear)) =>
      match MonthField(afterYear)
      case None => None
      case Some(Scanned(month, afterMonth)) =>
        match DayField(afterMonth)
        case None => None
        case Some(Scanned(day, rest)) =>
          if rest != [] || !IsValid(Date(year, month, day)) then None
          else Some(Date(year, month, day))
  }

  // ---------------------------------------------------------------------------
  // RemainingDays::parse

  /** The end date in openssl's output: the output trimmed, the piece after
      the first `=`, its space-separated words with empty words dropped, and
      the fourth, first and second word glued together as year, month and
      day. `None` where the Rust code panics: no `=`, fewer than four words,
      or text chrono rejects. */
  function EndDate(stdout: string): (r: Option<Date>)
    ensures r.Some? ==> IsValid(r.value)
  {
    var parts := Split(Trim(stdout), "=");
    if |parts| < 2 then None
    else
      var words := DropEmpty(Split(parts[1], " "));
      if |words| < 4 then None
      else ParseDate(words[3] + words[0] + words[1])
  }

  /** `RemainingDays::parse`, with today's date given: the number of days from
      today to the end date, positive while the certificate is still valid
      on a later day, zero on its last day and negative once it has expired.
      `None` where the Rust code panics. */
  function Parse(rd: RemainingDays, today: Date): (r: Option<i64>)
    requires IsValid(today)
    ensures r.Some? <==> EndDate(rd.stdout).Some?
    ensures r.Some? ==> var end := EndDate(rd.stdout).value;
      && (r.value > 0 <==> Before(today, end))
      && (r.value == 0 <==> end == today)
      && (r.value < 0 <==> Before(end, today))
  {
    var end := EndDate(rd.stdout);
    if end.None? then None
    else
      DaysBetweenFitsI64(today, end.value);
      Some(DaysBetween(today, end.value))
  }

  /** The day difference of two representable dates fits an `i64`, and its
      sign says which date is later. */
  lemma DaysBetweenFitsI64(from: Date, to: Date)
    requires IsValid(from) && IsValid(to)
    ensures -0x8000_0000_0000_0000 <= DaysBetween(from, to) < 0x8000_0000_0000_0000
    ensures DaysBetween(from, to) > 0 <==> Before(from, to)
    ensures DaysBetween(from, to) == 0 <==> from == to
    ensures DaysBetween(from, to) < 0 <==> Before(to, from)
  {
    DayNumberBounds(from);
    DayNumberBounds(to);
  }

  /** Output without an `=`, such as an empty output when openssl failed,
      makes `output[1]` panic: no result. */
  lemma ParseWithoutEquals(rd: RemainingDays, today: Date)
    requires IsValid(today) && '=' !in Trim(rd.stdout)
    ensures Parse(rd, today).None?
  {
    SplitWithoutSeparator(Trim(rd.stdout), '=');
  }

  /** Fewer than four non-empty words after the first `=` make
      `datetime[3]` panic: no result. */
  lemma TooFewWordsPanics(rd: RemainingDays, today: Date)
    requires IsValid(today)
    requires |Split(Trim(rd.stdout), "=")| >= 2
    requires |DropEmpty(Split(Split(Trim(rd.stdout), "=")[1], " "))| < 4
    ensures Parse(rd, today).None?
  {
  }

  /** A day later, one day fewer remains. */
  lemma ParseTomorrow(rd: RemainingDays, today: Date)
    requires IsValid(today) && today.year < MaxYear && EndDate(rd.stdout).Some?
    ensures IsValid(NextDay(today))
    ensures Parse(rd, NextDay(today)).value == Parse(rd, today).value - 1
  {
    NextDayIsOneDayLater(today);
  }

  // ---------------------------------------------------------------------------
  // Reading back what openssl prints

  /** The English month abbreviation openssl prints. */
  function MonthAbbrev(m: int): (name: string)
    requires 1 <= m <= 12
    ensures |name| == 3 && MonthOfName([Lower(name[0]), Lower(name[1]), Lower(name[2])]) == Some(m)
    ensures 'A' <= name[0] <= 'Z' && ' ' !in name && '=' !in name
  {
    ["Jan", "Feb", "Mar", "Apr", "May", "Jun", "Jul", "Aug", "Sep", "Oct", "Nov", "Dec"][m - 1]
  }

  lemma {:induction false} DigitRunOfDigits(a: string, t: string, max: nat)
    requires AllDigits(a) && |a| <= max && (t == [] || !IsDigit(t[0]))
    ensures DigitRun(a + t, max) == |a|
  {
    if a != [] {
      assert (a + t)[1..] == a[1..] + t;
      DigitRunOfDigits(a[1..], t, max - 1);
    }
  }

  /** A numeral of at most `max` digits followed by a non-digit is read back
      as its value. */
  lemma NumberOfNumeral(n: nat, t: string, max: nat)
    requires |NatToString(n)| <= max && (t == [] || !IsDigit(t[0]))
    ensures Number(NatToString(n) + t, 1, max) == Some(Scanned(n, t))
  {
    var a := NatToString(n);
    DigitRunOfDigits(a, t, max);
    assert (a + t)[..|a|] == a && (a + t)[|a|..] == t;
    NatToStringRoundTrip(n);
  }

  lemma {:induction false} NumeralLength(n: nat, k: nat)
    requires 1 <= k && n < Pow10(k)
    ensures |NatToString(n)| <= k
  {
    if n >= 10 {
      assert Pow10(1) == 10;
      NumeralLength(n / 10, k - 1);
    }
  }

  /** Text that starts with something other than whitespace is its own
      `trim_start`. */
  lemma TrimStartSolid(s: string)
    requires s != [] && !IsWhitespace(s[0])
    ensures TrimStart(s) == s
  {
  }

  /** `%Y` reads back a year of at most four digits followed by a letter. */
  lemma YearFieldOfNumeral(year: nat, rest: string)
    requires year <= 9999 && rest != [] && !IsDigit(rest[0])
    ensures YearField(NatToString(year) + rest) == Some(Scanned(year, rest))
  {
    var y := NatToString(year);
    TrimStartSolid(y + rest);
    assert Pow10(4) == 10000;
    NumeralLength(year, 4);
    NumberOfNumeral(year, rest, 4);
  }

  /** `%b` reads back openssl's month abbreviation. */
  lemma MonthFieldOfAbbrev(m: int, rest: string)
    requires 1 <= m <= 12
    ensures MonthField(MonthAbbrev(m) + rest) == Some(Scanned(m, rest))
  {
    var name := MonthAbbrev(m);
    assert (name + rest)[..3] == name && (name + rest)[3..] == rest;
  }

  /** `%d` reads back a day of at most two digits that ends the text. */
  lemma DayFieldOfNumeral(day: nat)
    requires day <= 99
    ensures DayField(NatToString(day)) == Some(Scanned(day, []))
  {
    var dd := NatToString(day);
    TrimStartSolid(dd);
    assert Pow10(2) == 100;
    NumeralLength(day, 2);
    NumberOfNumeral(day, [], 2);
    assert dd + [] == dd;
  }

  /** The three fields read in turn, nothing left over, give the date, or
      nothing when there is no such day. */
  lemma ParseDateOfFields(text: string, d: Date, afterYear: string, afterMonth: string)
    requires YearField(text) == Some(Scanned(d.year, afterYear))
    requires MonthField(afterYear) == Some(Scanned(d.month, afterMonth))
    requires DayField(afterMonth) == Some(Scanned(d.day, []))
    ensures ParseDate(text) == if IsValid(d) then Some(d) else None
  {
  }

  /** chrono reads back a date of a four-digit (or shorter) year written as
      year, month abbreviation and day without padding, and rejects it when
      there is no such day (the 29th of February of a common year, the 31st
      of April, day 0). */
  lemma ParseDateRoundTrip(d: Date)
    requires Printable(d) && d.year <= 9999 && d.day <= 99
    ensures ParseDate(NatToString(d.year) + MonthAbbrev(d.month) + NatToString(d.day))
            == if IsValid(d) then Some(d) else None
  {
    var y, m, dd := NatToString(d.year), MonthAbbrev(d.month), NatToString(d.day);
    assert y + m + dd == y + (m + dd);
    assert 'A' <= m[0] <= 'Z';
    YearFieldOfNumeral(d.year, m + dd);
    MonthFieldOfAbbrev(d.month, dd);
    DayFieldOfNumeral(d.day);
    ParseDateOfFields(y + m + dd, d, m + dd, dd);
  }

  /** The fields of a date openssl could print: a year of no sign, a month
      it has a name for, and a day number. */
  predicate Printable(d: Date) {
    0 <= d.year && 1 <= d.month <= 12 && 0 <= d.day
  }

  /** The words openssl prints for an end date `d` at time of day `time`:
      month, day, time, year and GMT. The day is right-aligned in two
      characters, so between single spaces a one-digit day leaves an empty
      word before it. */
  function DateWords(d: Date, time: string): (words: seq<string>)
    requires Printable(d)
    ensures |words| >= 5
  {
    var day := NatToString(d.day);
    [MonthAbbrev(d.month)] + (if d.day < 10 then ["", day] else [day])
      + [time, NatToString(d.year), "GMT"]
  }

  /** The line `openssl x509 -noout -enddate` prints for an end date `d`. */
  function EnddateLine(d: Date, time: string): string
    requires Printable(d)
  {
    "notAfter=" + Join(DateWords(d, time), " ") + "\n"
  }

  /** A digit string holds no other character. */
  lemma NoneButDigits(s: string, c: char)
    requires AllDigits(s) && !IsDigit(c)
    ensures c !in s
  {
  }

  /** Pieces that are all non-empty survive the filter. */
  lemma {:induction false} DropEmptyKeeps(parts: seq<string>)
    requires forall k :: 0 <= k < |parts| ==> parts[k] != []
    ensures DropEmpty(parts) == parts
  {
    if parts != [] {
      DropEmptyKeeps(parts[1..]);
      assert parts == [parts[0]] + parts[1..];
    }
  }

  /** Dropping the empty words leaves month, day, time, year and GMT. */
  lemma DateWordsFiltered(d: Date, time: string)
    requires Printable(d) && time != []
    ensures DropEmpty(DateWords(d, time))
         == [MonthAbbrev(d.month), NatToString(d.day), time, NatToString(d.year), "GMT"]
  {
    var m := MonthAbbrev(d.month);
    var rest := [NatToString(d.day), time, NatToString(d.year), "GMT"];
    DropEmptyKeeps(rest);
    var w := DateWords(d, time);
    if d.day < 10 {
      assert w == [m, ""] + rest;
      assert w[1..] == [""] + rest && w[1..][1..] == rest;
    } else {
      assert w == [m] + rest;
      assert w[1..] == rest;
    }
  }

  /** No word of the date holds a space or an `=`, so splitting the joined
      words at spaces gives them back, and the joined words hold no `=`. */
  lemma DateWordsSplit(d: Date, time: string)
    requires Printable(d) && ' ' !in time && '=' !in time
    ensures Split(Join(DateWords(d, time), " "), " ") == DateWords(d, time)
    ensures '=' !in Join(DateWords(d, time), " ")
  {
    var w := DateWords(d, time);
    NoneButDigits(NatToString(d.day), ' ');
    NoneButDigits(NatToString(d.year), ' ');
    NoneButDigits(NatToString(d.day), '=');
    NoneButDigits(NatToString(d.year), '=');
    assert forall k :: 0 <= k < |w| ==> ' ' !in w[k] && '=' !in w[k];
    SplitJoin(w, ' ');
    JoinAvoids(w, " ", '=');
  }

  /** Trimming openssl's line drops the newline, and splitting at `=` leaves
      the date part second. */
  lemma LineParts(after: string)
    requires after != [] && '=' !in after && !IsWhitespace(after[|after| - 1])
    ensures Split(Trim("notAfter=" + after + "\n"), "=") == ["notAfter", after]
  {
    var key := "notAfter";
    assert "notAfter=" + after + "\n" == key + ['='] + after + "\n";
    KeyValueParts(key, after, "\n");
  }

  /** A key, `=`, and a value without `=`, followed by whitespace, split
      into the key and the value once trimmed. */
  lemma KeyValueParts(key: string, after: string, w: string)
    requires key != [] && '=' !in key && !IsWhitespace(key[0])
    requires after != [] && '=' !in after && !IsWhitespace(after[|after| - 1])
    requires forall k :: 0 <= k < |w| ==> IsWhitespace(w[k])
    ensures Split(Trim(key + ['='] + after + w), "=") == [key, after]
  {
    var line := key + ['='] + after;
    assert line[0] == key[0] && line[|line| - 1] == after[|after| - 1];
    TrimDropsTrailing(line, w);
    SplitAtFirst(key, '=', after);
    SplitWithoutSeparator(after, '=');
  }

  /** `EndDate` reads the date from the words of the piece after `=`. */
  lemma EndDateOfWords(stdout: string, key: string, after: string, words: seq<string>)
    requires Split(Trim(stdout), "=") == [key, after]
    requires DropEmpty(Split(after, " ")) == words && |words| >= 4
    ensures EndDate(stdout) == ParseDate(words[3] + words[0] + words[1])
  {
  }

  /** Splitting openssl's trimmed line at `=` leaves the joined date words
      second. */
  lemma EnddateLineParts(d: Date, time: string)
    requires Printable(d) && ' ' !in time && '=' !in time
    ensures Split(Trim(EnddateLine(d, time)), "=") == ["notAfter", Join(DateWords(d, time), " ")]
  {
    var w := DateWords(d, time);
    DateWordsSplit(d, time);
    JoinLast(w, " ");
    LineParts(Join(w, " "));
  }

  /** The non-empty space-separated words of the date part. */
  lemma EnddateLineWords(d: Date, time: string)
    requires Printable(d) && time != [] && ' ' !in time && '=' !in time
    ensures DropEmpty(Split(Join(DateWords(d, time), " "), " "))
         == [MonthAbbrev(d.month), NatToString(d.day), time, NatToString(d.year), "GMT"]
  {
    DateWordsSplit(d, time);
    DateWordsFiltered(d, time);
  }

  /** The end date read from openssl's line is the certificate's end date,
      and there is none when the printed fields name no day. */
  lemma EndDateOfEnddateLine(d: Date, time: string)
    requires Printable(d) && d.year <= 9999 && d.day <= 99
    requires time != [] && ' ' !in time && '=' !in time
    ensures EndDate(EnddateLine(d, time)) == if IsValid(d) then Some(d) else None
  {
    EnddateLineParts(d, time);
    EnddateLineWords(d, time);
    EndDateOfWords(EnddateLine(d, time), "notAfter", Join(DateWords(d, time), " "),
      [MonthAbbrev(d.month), NatToString(d.day), time, NatToString(d.year), "GMT"]);
    ParseDateRoundTrip(d);
  }

  /** `parse` reads openssl's end-date line back: for a certificate ending on
      `d` the result is the number of days from today to `d`, whatever the
      time of day. */
  lemma ParseEnddateLine(d: Date, time: string, today: Date, stderr: string, organisation: string, domain: string)
    requires IsValid(d) && 0 <= d.year <= 9999 && IsValid(today)
    requires time != [] && ' ' !in time && '=' !in time
    ensures var r := Parse(RemainingDays(EnddateLine(d, time), stderr, organisation, domain), today);
      r.Some? && r.value == DaysBetween(today, d)
  {
    EndDateOfEnddateLine(d, time);
  }

  /** A line whose fields name no day, such as `notAfter=Feb 29 ... 2025 GMT`,
      makes chrono's `unwrap` panic: no result. */
  lemma ImpossibleEnddateLinePanics(d: Date, time: string, today: Date, stderr: string, organisation: string, domain: string)
    requires Printable(d) && d.year <= 9999 && d.day <= 99 && !IsValid(d) && IsValid(today)
    requires time != [] && ' ' !in time && '=' !in time
    ensures Parse(RemainingDays(EnddateLine(d, time), stderr, organisation, domain), today).None?
  {
    EndDateOfEnddateLine(d, time);
  }
}

=== FILE: organisation.dfy ===
/** The issuer's organisation, as `get_organisation` and
    `write_tmp_get_organisation` (src/main.rs) pick it out of the certificate
    chain trace that `openssl s_client` prints on stderr. The trace has one
    `depth=N ...` line per certificate of the chain; `depth=1` is the issuing
    CA, whose distinguished name is printed either spaced
    (`C = US, O = Let's Encrypt, CN = R3`) or compact (`C=US, O=..., CN=...`). */
module Organisation {
  import opened Prelude
  import opened Text

  /** The spaced organisation attribute, and what ends its value. */
  const Spaced: string := "O = "
  const SpacedEnd: string := " ="

  /** The compact organisation attribute, and what ends its value. */
  const Compact: string := "O="
  const CompactEnd: string := ","

  /** The marker of the trace lines about the issuing certificate. */
  const DepthOne: string := "depth=1"

  /** `get_organisation`. The line is split at `O = `; when that does not
      occur it is split at `O=` instead, and the second piece is taken. */
  function GetOrganisation(i: string): (r: Option<string>)
    ensures r.Some? ==> '"' !in r.value
    ensures !Contains(i, Spaced) && !Contains(i, Compact) ==> r.None?
    ensures !Contains(i, Spaced) && Contains(i, Compact) ==> r.Some?
    ensures var parts := Split(i, Spaced); |parts| >= 2 ==>
      var seg := Split(parts[1], SpacedEnd)[0];
      && (ByteLen(seg) < 4 ==> r.None?)
      && (4 <= |seg| && (forall k :: 0 <= k < |seg| ==> seg[k] < '\U{80}') ==> r.Some?)
  {
    SplitCount(i, Spaced);
    SplitCount(i, Compact);
    var spaced := Split(i, Spaced);
    if |spaced| == 1 then FromPieces(Split(i, Compact), CompactEnd, 0)
    else FromPieces(spaced, SpacedEnd, 4)
  }

  /** The rest of `get_organisation` once the line is split: the second
      piece is cut at the first `sep`, the last `cut` bytes are dropped
      (in the spaced form, 4: meant to be the `, CN` before the next ` =`),
      and every `"` is removed. Rust panics (`None`) when there is no second
      piece or the cut piece is too short. */
  function FromPieces(parts: seq<string>, sep: string, cut: nat): (r: Option<string>)
    requires |sep| > 0
    ensures r.Some? ==> '"' !in r.value
    ensures r.None? ==> |parts| < 2 || cut > 0
    ensures cut == 0 ==> (r.None? <==> |parts| < 2)
    ensures |parts| >= 2 ==>
      var seg := Split(parts[1], sep)[0];
      && (ByteLen(seg) < cut ==> r.None?)
      && (cut <= |seg| && (forall k :: 0 <= k < |seg| ==> seg[k] < '\U{80}') ==> r.Some?)
  {
    if |parts| < 2 then None
    else
      var seg := Split(parts[1], sep)[0];
      DropTrailingBytesOfAscii(seg, cut);
      match DropTrailingBytes(seg, cut)
      case None => None
      case Some(o) => Some(RemoveAll(o, '"'))
  }

  /** Under the conditions of `SpacedOrganisation`, the text after `O = `
      is the value, then the 4-byte tag `, CN`, then ` =`. */
  lemma SpacedRest(org: string, key: string, value: string)
    requires '=' !in org && '=' !in key
    requires |key| == 2 && key[0] < '\U{80}' && key[1] < '\U{80}'
    ensures Split(org + ", " + key + " = " + value, SpacedEnd)[0] == org + (", " + key)
    ensures ByteLen(", " + key) == 4
  {
    var tag := ", " + key;
    assert org + ", " + key + " = " + value == (org + tag) + SpacedEnd + (" " + value);
    NoMatchWithoutChar(org + tag, SpacedEnd, '=');
    FirstPiece(org + tag, SpacedEnd, " " + value);
    ByteLenOfAscii(tag);
  }

  /** The usual spaced issuer line: the organisation is the value of `O`,
      without quotes, when `O = ` occurs only once, the value has no `=` and
      the attribute after it has a two-character ASCII key (`CN`). The
      example of src/main.rs:159-160 is the case `pre` = `depth=1 C = US, `,
      `org` = `Let's Encrypt`, `key` = `CN`, `value` = `R3`. */
  lemma SpacedOrganisation(pre: string, org: string, key: string, value: string)
    requires !Contains(pre, Spaced)
    requires !Contains(org + ", " + key + " = " + value, Spaced)
    requires '=' !in org && '=' !in key
    requires |key| == 2 && key[0] < '\U{80}' && key[1] < '\U{80}'
    ensures GetOrganisation(pre + Spaced + (org + ", " + key + " = " + value))
            == Some(RemoveAll(org, '"'))
  {
    var rest := org + ", " + key + " = " + value;
    SplitInTwo(pre, Spaced, rest);
    SpacedRest(org, key, value);
    DropTrailingBytesOfSuffix(org, ", " + key);
  }

  /** The issuer line of a Let's Encrypt chain, cut into its pieces around
      `O = `, yields the organisation name. */
  lemma LetsEncryptIssuer(pre: string, org: string, key: string, value: string)
    requires pre == "depth=1 C = US, " && org == "Let's Encrypt" && key == "CN" && value == "R3"
    ensures pre + Spaced + (org + ", " + key + " = " + value) == "depth=1 C = US, O = Let's Encrypt, CN = R3"
    ensures GetOrganisation(pre + Spaced + (org + ", " + key + " = " + value)) == Some("Let's Encrypt")
  {
    LetsEncryptPieces(pre, org, key, value);
    SpacedOrganisation(pre, org, key, value);
    LetsEncryptLine(pre, org, key, value);
  }

  /** No piece of the Let's Encrypt issuer line holds `O = ` of its own. */
  lemma LetsEncryptPieces(pre: string, org: string, key: string, value: string)
    requires pre == "depth=1 C = US, " && org == "Let's Encrypt" && key == "CN" && value == "R3"
    ensures !Contains(pre, Spaced) && !Contains(org + ", " + key + " = " + value, Spaced)
    ensures '"' !in org
  {
    NoMatchWithoutChar(pre, Spaced, 'O');
    NoMatchWithoutChar(org + ", " + key + " = " + value, Spaced, 'O');
  }

  /** The pieces of the Let's Encrypt issuer line put back together. */
  lemma LetsEncryptLine(pre: string, org: string, key: string, value: string)
    requires pre == "depth=1 C = US, " && org == "Let's Encrypt" && key == "CN" && value == "R3"
    ensures pre + Spaced + (org + ", " + key + " = " + value) == "depth=1 C = US, O = Let's Encrypt, CN = R3"
  {
  }

  /** When `O` is the last spaced attribute, nothing ends its value and the
      4 bytes dropped are the value's own: its last 4 bytes are lost. */
  lemma LastAttributeLosesFourBytes(pre: string, keep: string, tail: string)
    requires !Contains(pre, Spaced) && !Contains(keep + tail, Spaced)
    requires '=' !in keep + tail
    requires ByteLen(tail) == 4
    ensures GetOrganisation(pre + Spaced + (keep + tail)) == Some(RemoveAll(keep, '"'))
  {
    SplitInTwo(pre, Spaced, keep + tail);
    NoMatchWithoutChar(keep + tail, SpacedEnd, '=');
    SplitWithoutPattern(keep + tail, SpacedEnd);
    DropTrailingBytesOfSuffix(keep, tail);
  }

  /** ... and when that value is shorter than 4 bytes, `get_organisation`
      panics. */
  lemma ShortLastAttributePanics(pre: string, org: string)
    requires !Contains(pre, Spaced) && !Contains(org, Spaced)
    requires '=' !in org
    requires ByteLen(org) < 4
    ensures GetOrganisation(pre + Spaced + org).None?
  {
    SplitInTwo(pre, Spaced, org);
    NoMatchWithoutChar(org, SpacedEnd, '=');
    SplitWithoutPattern(org, SpacedEnd);
  }

  /** When another spaced attribute follows `O`, the text up to its ` =`
      loses 4 bytes; when that text is shorter than 4 bytes (an empty
      organisation, say), `get_organisation` panics. */
  lemma ShortSpacedSegmentPanics(pre: string, seg: string, rest: string)
    requires !Contains(pre, Spaced) && !Contains(seg + SpacedEnd + rest, Spaced)
    requires '=' !in seg
    requires ByteLen(seg) < 4
    ensures GetOrganisation(pre + Spaced + (seg + SpacedEnd + rest)).None?
  {
    SplitInTwo(pre, Spaced, seg + SpacedEnd + rest);
    NoMatchWithoutChar(seg, SpacedEnd, '=');
    FirstPiece(seg, SpacedEnd, rest);
  }

  /** The issuer line `depth=1 O = , C = US`, whose organisation is empty,
      makes `get_organisation` panic: the text before ` =` is `, C`, only
      3 bytes. */
  lemma EmptySpacedOrganisationPanics(pre: string, seg: string, rest: string)
    requires pre == "depth=1 " && seg == ", C" && rest == " US"
    ensures pre + Spaced + (seg + SpacedEnd + rest) == "depth=1 O = , C = US"
    ensures GetOrganisation(pre + Spaced + (seg + SpacedEnd + rest)).None?
  {
    EmptySpacedPieces(pre, seg, rest);
    ShortSpacedSegmentPanics(pre, seg, rest);
    EmptySpacedLine(pre, seg, rest);
  }

  /** No piece of that line holds `O = ` of its own, and the text before
      ` =` is 3 bytes without `=`. */
  lemma EmptySpacedPieces(pre: string, seg: string, rest: string)
    requires pre == "depth=1 " && seg == ", C" && rest == " US"
    ensures !Contains(pre, Spaced) && !Contains(seg + SpacedEnd + rest, Spaced)
    ensures '=' !in seg && ByteLen(seg) < 4
  {
    NoMatchWithoutChar(pre, Spaced, 'O');
    NoMatchWithoutChar(seg + SpacedEnd + rest, Spaced, 'O');
    ByteLenOfAscii(seg);
  }

  /** The pieces of that line put back together. */
  lemma EmptySpacedLine(pre: string, seg: string, rest: string)
    requires pre == "depth=1 " && seg == ", C" && rest == " US"
    ensures pre + Spaced + (seg + SpacedEnd + rest) == "depth=1 O = , C = US"
  {
  }

  /** The compact value runs up to the first comma, or to the end. */
  lemma CompactValue(org: string, tail: string)
    requires ',' !in org
    requires tail == [] || tail[0] == ','
    ensures Split(org + tail, CompactEnd)[0] == org
  {
    NoMatchWithoutChar(org, CompactEnd, ',');
    if tail == [] {
      assert org + tail == org;
      SplitWithoutPattern(org, CompactEnd);
    } else {
      assert org + tail == org + CompactEnd + tail[1..];
      FirstPiece(org, CompactEnd, tail[1..]);
    }
  }

  /** The compact issuer line: the organisation is the value of `O=` up to
      the next comma, without quotes. */
  lemma CompactOrganisation(pre: string, org: string, tail: string)
    requires !Contains(pre + Compact + (org + tail), Spaced)
    requires !Contains(pre, Compact) && !Contains(org + tail, Compact)
    requires ',' !in org
    requires tail == [] || tail[0] == ','
    ensures GetOrganisation(pre + Compact + (org + tail)) == Some(RemoveAll(org, '"'))
  {
    SplitWithoutPattern(pre + Compact + (org + tail), Spaced);
    SplitInTwo(pre, Compact, org + tail);
    CompactValue(org, tail);
  }

  // ---------------------------------------------------------------------------
  // Choosing the line

  /** The lines about the issuing certificate, in order (the `filter` of
      src/main.rs:153). */
  function DepthOneLines(lines: seq<string>): (r: seq<string>)
    ensures |r| <= |lines|
  {
    if lines == [] then []
    else (if Contains(lines[0], DepthOne) then [lines[0]] else []) + DepthOneLines(lines[1..])
  }

  /** The lines kept are exactly the lines that contain `depth=1`. */
  lemma {:induction false} DepthOneLinesMembers(lines: seq<string>)
    ensures forall x :: x in DepthOneLines(lines) <==> x in lines && Contains(x, DepthOne)
  {
    if lines != [] {
      DepthOneLinesMembers(lines[1..]);
      assert lines == [lines[0]] + lines[1..];
    }
  }

  /** No line is kept exactly when no line contains `depth=1`. */
  lemma {:induction false} DepthOneLinesEmpty(lines: seq<string>)
    ensures DepthOneLines(lines) == [] <==> forall k :: 0 <= k < |lines| ==> !Contains(lines[k], DepthOne)
  {
    if lines != [] {
      DepthOneLinesEmpty(lines[1..]);
      forall k | 1 <= k < |lines|
        ensures lines[k] == lines[1..][k - 1]
      {
      }
    }
  }

  /** `get_organisation` of each line, in order. */
  function Organisations(lines: seq<string>): (r: seq<Option<string>>)
    ensures |r| == |lines|
    ensures forall k :: 0 <= k < |lines| ==> r[k] == GetOrganisation(lines[k])
  {
    seq(|lines|, k requires 0 <= k < |lines| => GetOrganisation(lines[k]))
  }

  /** The `for_each` that assigns each line's `get_organisation` in turn to
      `organisation`: a panic on any line panics, and otherwise the last
      line's organisation is kept (`current` when there is none). */
  function AssignEach(results: seq<Option<string>>, current: string): (r: Option<string>)
    ensures r.None? <==> None in results
    ensures r.Some? && results == [] ==> r.value == current
    ensures r.Some? && results != [] ==> Some(r.value) == results[|results| - 1]
  {
    if results == [] then Some(current)
    else
      match results[0]
      case None => None
      case Some(o) =>
        assert results == [results[0]] + results[1..];
        AssignEach(results[1..], o)
  }

  /** `write_tmp_get_organisation` after the `s_client` run: the empty
      string unless stderr is non-empty, and then the assignment over its
      `depth=1` lines. */
  function OrganisationFromStderr(stderr: string): (r: Option<string>)
    ensures stderr == [] ==> r == Some("")
    ensures r.Some? ==> '"' !in r.value
  {
    if stderr == [] then Some("")
    else
      AssignEach(Organisations(DepthOneLines(Lines(stderr))), "")
  }

  /** The last `depth=1` line is the last line that was kept. */
  lemma {:induction false} LastDepthOneLine(lines: seq<string>, k: nat)
    requires k < |lines| && Contains(lines[k], DepthOne)
    requires forall j :: k < j < |lines| ==> !Contains(lines[j], DepthOne)
    ensures DepthOneLines(lines) != []
    ensures DepthOneLines(lines)[|DepthOneLines(lines)| - 1] == lines[k]
  {
    var head := if Contains(lines[0], DepthOne) then [lines[0]] else [];
    var rest := DepthOneLines(lines[1..]);
    assert DepthOneLines(lines) == head + rest;
    forall j | k - 1 < j < |lines[1..]|
      ensures !Contains(lines[1..][j], DepthOne)
    {
      assert lines[1..][j] == lines[j + 1];
    }
    if k > 0 {
      assert lines[1..][k - 1] == lines[k];
      LastDepthOneLine(lines[1..], k - 1);
    } else {
      DepthOneLinesEmpty(lines[1..]);
    }
  }

  /** The lines of stderr: the pieces between its line feeds, which join back
      to stderr and hold no line feed themselves. */
  function Lines(stderr: string): (lines: seq<string>)
    ensures |lines| >= 1 && Join(lines, "\n") == stderr
    ensures forall k :: 0 <= k < |lines| ==> '\n' !in lines[k]
  {
    var lines := Split(stderr, "\n");
    forall k | 0 <= k < |lines|
      ensures '\n' !in lines[k]
    {
      CharWithoutMatch(lines[k], '\n');
    }
    lines
  }

  /** Without a line about the issuing certificate the organisation is empty,
      whether or not stderr is. */
  lemma NoDepthOneLineNoOrganisation(stderr: string)
    requires forall k :: 0 <= k < |Lines(stderr)| ==> !Contains(Lines(stderr)[k], DepthOne)
    ensures OrganisationFromStderr(stderr) == Some("")
  {
    DepthOneLinesEmpty(Lines(stderr));
  }

  /** Reading the organisation panics exactly when `get_organisation` panics
      on one of the lines about the issuing certificate. */
  lemma OrganisationPanics(stderr: string)
    ensures OrganisationFromStderr(stderr).None? <==>
      exists k :: 0 <= k < |Lines(stderr)| && Contains(Lines(stderr)[k], DepthOne)
                  && GetOrganisation(Lines(stderr)[k]).None?
  {
    var lines := Lines(stderr);
    var kept := DepthOneLines(lines);
    var results := Organisations(kept);
    DepthOneLinesMembers(lines);
    if stderr == [] {
      SplitWithoutPattern(stderr, "\n");
      assert lines == [""];
    } else if OrganisationFromStderr(stderr).None? {
      var m :| 0 <= m < |results| && results[m] == None;
      assert kept[m] in kept;
      var k :| 0 <= k < |lines| && lines[k] == kept[m];
    } else {
      forall k | 0 <= k < |lines| && Contains(lines[k], DepthOne)
        ensures GetOrganisation(lines[k]).Some?
      {
        assert lines[k] in kept;
        var m :| 0 <= m < |kept| && kept[m] == lines[k];
        assert results[m] in results;
      }
    }
  }

  /** Empty stderr has no line about the issuing certificate. */
  lemma DepthOneLineNeedsText(stderr: string, k: nat)
    requires k < |Lines(stderr)| && Contains(Lines(stderr)[k], DepthOne)
    ensures stderr != []
  {
    if stderr == [] {
      SplitWithoutPattern(stderr, "\n");
      assert false;
    }
  }

  /** Otherwise the organisation is the one on the last line about the
      issuing certificate. */
  lemma OrganisationOfLastDepthOneLine(stderr: string, k: nat)
    requires k < |Lines(stderr)| && Contains(Lines(stderr)[k], DepthOne)
    requires forall j :: k < j < |Lines(stderr)| ==> !Contains(Lines(stderr)[j], DepthOne)
    requires OrganisationFromStderr(stderr).Some?
    ensures OrganisationFromStderr(stderr) == GetOrganisation(Lines(stderr)[k])
  {
    DepthOneLineNeedsText(stderr, k);
    AssignLastDepthOneLine(Lines(stderr), k);
  }

  /** The assignment over the kept lines ends with the last line kept. */
  lemma AssignLastDepthOneLine(lines: seq<string>, k: nat)
    requires k < |lines| && Contains(lines[k], DepthOne)
    requires forall j :: k < j < |lines| ==> !Contains(lines[j], DepthOne)
    requires AssignEach(Organisations(DepthOneLines(lines)), "").Some?
    ensures AssignEach(Organisations(DepthOneLines(lines)), "") == GetOrganisation(lines[k])
  {
    LastDepthOneLine(lines, k);
  }
}

=== FILE: prelude.dfy ===
/** Small shared vocabulary: optional values, Rust's three-way ordering and
    Rust's `i64`. */
module Prelude {

  /** An optional value. Throughout the model `None` stands for a Rust panic
      (an `unwrap` on an error, an out-of-bounds index): the run aborts and
      produces no table. */
  datatype Option<+T> = None | Some(value: T)

  /** The result of a three-way comparison, as Rust's `std::cmp::Ordering`. */
  datatype Ordering = Less | Equal | Greater {
    /** The ordering of the swapped comparison. */
    function Reverse(): Ordering {
      match this
      case Less => Greater
      case Equal => Equal
      case Greater => Less
    }
  }

  /** Rust's signed 64-bit integer. */
  type i64 = x: int | -0x8000_0000_0000_0000 <= x < 0x8000_0000_0000_0000

  function Max(a: int, b: int): (m: int)
    ensures m >= a && m >= b && (m == a || m == b)
  {
    if a < b then b else a
  }

  /** Three-way comparison of integers, as `Ord::cmp` on `i64`. */
  function IntCmp(a: int, b: int): (r: Ordering)
    ensures r == Less <==> a < b
    ensures r == Equal <==> a == b
    ensures r == Greater <==> a > b
  {
    if a < b then Less else if a == b then Equal else Greater
  }
}

=== FILE: report.dfy ===
/** The two report loops of src/main.rs. Each host's openssl results become a
    row of the table, hosts whose certificate could not be read are skipped,
    and the table is printed as it was filled (`from_domains`) or sorted by
    host and then by remaining days (`from_file`). A panic anywhere ends the
    program before the table is printed, which the model writes as `None`. */
module Report {
  import opened Prelude
  import opened Text
  import opened Calendar
  import opened Tables
  import opened TableOrder
  import opened Expiry
  import opened Organisation

  /** What the two openssl runs for one host wrote: the standard error of
      `openssl s_client` (its chain trace), and standard output and standard
      error of `openssl x509 -enddate`. */
  datatype HostRun = HostRun(host: string, connectStderr: string, enddateStdout: string, enddateStderr: string)

  /** `process_domain_line` once both commands have run: the organisation
      from the `s_client` trace, and the `-enddate` output with its standard
      error trimmed. `None` where reading the organisation panics. */
  function ProcessDomainLine(run: HostRun): (r: Option<RemainingDays>)
    ensures r.Some? <==> OrganisationFromStderr(run.connectStderr).Some?
    ensures r.Some? ==>
      && r.value.domain == run.host
      && r.value.organisation == OrganisationFromStderr(run.connectStderr).value
      && r.value.stdout == run.enddateStdout
      && (r.value.stderr == [] <==> forall k :: 0 <= k < |run.enddateStderr| ==> IsWhitespace(run.enddateStderr[k]))
  {
    match OrganisationFromStderr(run.connectStderr)
    case None => None
    case Some(organisation) => Some(CmdOutput(run.enddateStdout, run.enddateStderr, organisation, run.host))
  }

  /** `add_successful_parsed_remaining_days`: with something on standard
      error the table is left alone and `true` returned; otherwise one data
      row for the host, its quoted organisation and the remaining days is
      appended and `false` returned. `None` where `parse` panics. */
  function AddSuccessful(t: Table, rd: RemainingDays, today: Date): (r: Option<(Table, bool)>)
    requires IsValid(today)
    ensures rd.stderr != [] ==> r == Some((t, true))
    ensures rd.stderr == [] ==> (r.Some? <==> EndDate(rd.stdout).Some?)
    ensures r.Some? && rd.stderr == [] ==>
      && !r.value.1
      && r.value.0.rows == t.rows + [NewRow(rd.domain, rd.organisation, Parse(rd, today).value)]
    ensures r.Some? ==>
      && |t.rows| <= |r.value.0.rows| <= |t.rows| + 1
      && r.value.0.rows[..|t.rows|] == t.rows
  {
    if rd.stderr != [] then Some((t, true))
    else
      match Parse(rd, today)
      case None => None
      case Some(days) => Some((Add(t, NewRow(rd.domain, rd.organisation, days)), false))
  }

  /** The loop of `from_domains`: each host is processed and its result
      added before the next host is looked at. It panics exactly when some
      host's run panics, and otherwise adds the hosts' rows in order. */
  function DomainsLoop(t: Table, runs: seq<HostRun>, today: Date): (r: Option<Table>)
    requires IsValid(today)
    ensures r == (if NonePanic(runs, today) then Some(AddAll(t, AddedRows(runs, today))) else None)
    decreases |runs|
  {
    if runs == [] then Some(t)
    else
      StepOutcome(t, runs[0], today);
      AddedRowsStep(runs, today);
      match ProcessDomainLine(runs[0])
      case None => None
      case Some(rd) =>
        match AddSuccessful(t, rd, today)
        case None => None
        case Some(added) =>
          AddOutcome(t, added.0, runs, today);
          DomainsLoop(added.0, runs[1..], today)
  }

  /** `from_domains`: the table it prints, unsorted. It prints one exactly
      when no host's run panics: the header, then one row per host that got
      one, in the order the hosts were given, with every column as wide as
      its widest field and at least as wide as its title. */
  function FromDomains(runs: seq<HostRun>, today: Date): (r: Option<Table>)
    requires IsValid(today)
    ensures r.Some? <==> NonePanic(runs, today)
    ensures r.Some? ==>
      && r.value.rows == [HeaderRow()] + AddedRows(runs, today)
      && r.value.lenUrl == Max(5, HostWidth(AddedRows(runs, today)))
      && r.value.lenOrg == Max(13, OrgWidth(AddedRows(runs, today)))
      && r.value.lenRemaining == Max(5, DaysWidth(AddedRows(runs, today)))
      && Fits(r.value)
  {
    BuildWidths(AddedRows(runs, today));
    DomainsLoop(StartTable(), runs, today)
  }

  /** The join loop of `from_file`: the results of the spawned tasks, awaited in the
      order the hosts were read, are added one by one; a task that panicked
      makes `unwrap` panic. The rows already in the table stay in front, and
      each result adds at most one row. */
  function JoinLoop(t: Table, results: seq<Option<RemainingDays>>, today: Date): (r: Option<Table>)
    requires IsValid(today)
    ensures None in results ==> r.None?
    ensures r.Some? ==>
      && |t.rows| <= |r.value.rows| <= |t.rows| + |results|
      && r.value.rows[..|t.rows|] == t.rows
    decreases |results|
  {
    if results == [] then Some(t)
    else
      assert results == [results[0]] + results[1..];
      match results[0]
      case None => None
      case Some(rd) =>
        match AddSuccessful(t, rd, today)
        case None => None
        case Some(added) =>
          var r := JoinLoop(added.0, results[1..], today);
          if r.Some? then
            PrefixOfPrefix(t.rows, added.0.rows, r.value.rows);
            r
          else r
  }

  /** A prefix of a prefix is a prefix. */
  lemma PrefixOfPrefix<T>(a: seq<T>, b: seq<T>, c: seq<T>)
    requires |a| <= |b| && b[..|a|] == a
    requires |b| <= |c| && c[..|b|] == b
    ensures c[..|a|] == a
  {
    assert c[..|a|] == c[..|b|][..|a|];
  }

  /** The results of the spawned tasks of `from_file`, one per line of the host file. */
  function Results(runs: seq<HostRun>): (r: seq<Option<RemainingDays>>)
    ensures |r| == |runs|
    ensures forall k :: 0 <= k < |runs| ==> r[k] == ProcessDomainLine(runs[k])
  {
    seq(|runs|, k requires 0 <= k < |runs| => ProcessDomainLine(runs[k]))
  }

  /** `from_file`: the table it prints. It panics in the same cases as
      `from_domains` for the same hosts, and otherwise prints the same rows
      sorted by host and then by remaining days: data rows by days, and rows
      with the same days by host. */
  function FromFile(runs: seq<HostRun>, today: Date): (r: Option<Table>)
    requires IsValid(today)
    ensures r == (match FromDomains(runs, today)
                  case None => None
                  case Some(t) => Some(OrderByRemainingDays(OrderByHost(t))))
    ensures r.Some? ==>
      && multiset(r.value.rows) == multiset([HeaderRow()] + AddedRows(runs, today))
      && HeadersFirst(r.value.rows)
      && (forall i, j :: 0 <= i < j < |r.value.rows| && r.value.rows[i].Data? && r.value.rows[j].Data? ==>
            || r.value.rows[i].days < r.value.rows[j].days
            || (r.value.rows[i].days == r.value.rows[j].days && StrLe(r.value.rows[i].host, r.value.rows[j].host)))
  {
    JoinLoopAddsRows(StartTable(), runs, today);
    match JoinLoop(StartTable(), Results(runs), today)
    case None => None
    case Some(t) =>
      HostThenDays(t);
      Some(OrderByRemainingDays(OrderByHost(t)))
  }

  // ---------------------------------------------------------------------------
  // What happens to one host, and to all of them

  /** The fate of one host: the run panics, the host is skipped because
      `openssl x509` complained, or the host gets a row. */
  datatype Outcome = Panicked | Skipped | Added(row: TableRow)

  /** A host's fate, read off its openssl output: no usable issuer line
      panics; non-blank `-enddate` standard error skips the host; otherwise
      an unreadable end date panics and a readable one gives a row with the
      days from `today` to it. */
  function OutcomeOf(run: HostRun, today: Date): (o: Outcome)
    requires IsValid(today)
    ensures o.Added? ==> o.row.Data? && o.row.host == run.host
  {
    var organisation := OrganisationFromStderr(run.connectStderr);
    if organisation.None? then Panicked
    else if exists k :: 0 <= k < |run.enddateStderr| && !IsWhitespace(run.enddateStderr[k]) then Skipped
    else
      match EndDate(run.enddateStdout)
      case None => Panicked
      case Some(end) =>
        DaysBetweenFitsI64(today, end);
        Added(NewRow(run.host, organisation.value, DaysBetween(today, end)))
  }

  /** No host's run panics. */
  predicate NonePanic(runs: seq<HostRun>, today: Date)
    requires IsValid(today)
  {
    forall k :: 0 <= k < |runs| ==> OutcomeOf(runs[k], today) != Panicked
  }

  /** The rows the hosts get, in the order of the hosts. */
  function AddedRows(runs: seq<HostRun>, today: Date): (rows: seq<TableRow>)
    requires IsValid(today)
    ensures AllData(rows)
    decreases |runs|
  {
    if runs == [] then []
    else
      var o := OutcomeOf(runs[0], today);
      (if o.Added? then [o.row] else []) + AddedRows(runs[1..], today)
  }

  /** The number of hosts whose `-enddate` standard error is blank. */
  function CleanRuns(runs: seq<HostRun>): nat
    decreases |runs|
  {
    if runs == [] then 0
    else
      var clean := forall k :: 0 <= k < |runs[0].enddateStderr| ==> IsWhitespace(runs[0].enddateStderr[k]);
      (if clean then 1 else 0) + CleanRuns(runs[1..])
  }

  /** Processing one host and adding its result does what its outcome says. */
  lemma StepOutcome(t: Table, run: HostRun, today: Date)
    requires IsValid(today)
    ensures var o := OutcomeOf(run, today);
      match ProcessDomainLine(run)
      case None => o == Panicked
      case Some(rd) =>
        match AddSuccessful(t, rd, today)
        case None => o == Panicked
        case Some(added) =>
          && o != Panicked
          && added.0 == (if o.Added? then Add(t, o.row) else t)
  {
    match ProcessDomainLine(run)
    case None =>
    case Some(rd) =>
      if rd.stderr == [] {
        match Parse(rd, today)
        case None =>
        case Some(days) =>
          assert days == DaysBetween(today, EndDate(rd.stdout).value);
      }
  }

  /** A list of hosts is free of panics exactly when its first host and the
      rest are. */
  lemma AddedRowsStep(runs: seq<HostRun>, today: Date)
    requires IsValid(today) && runs != []
    ensures NonePanic(runs, today) <==> OutcomeOf(runs[0], today) != Panicked && NonePanic(runs[1..], today)
  {
    EveryOfTail(runs, run => OutcomeOf(run, today) != Panicked);
  }

  /** A property holds of every element exactly when it holds of the first
      and of every element of the rest. */
  lemma EveryOfTail<T>(s: seq<T>, p: T -> bool)
    requires s != []
    ensures (forall k :: 0 <= k < |s| ==> p(s[k])) <==> p(s[0]) && forall k :: 0 <= k < |s[1..]| ==> p(s[1..][k])
  {
    if p(s[0]) && forall k :: 0 <= k < |s[1..]| ==> p(s[1..][k]) {
      forall k | 0 < k < |s|
        ensures p(s[k])
      {
        assert s[k] == s[1..][k - 1];
      }
    }
  }

  /** Adding the first host's outcome and then the rest of the hosts' rows
      adds all of the hosts' rows. */
  lemma AddOutcome(t: Table, next: Table, runs: seq<HostRun>, today: Date)
    requires IsValid(today) && runs != []
    requires var o := OutcomeOf(runs[0], today); next == (if o.Added? then Add(t, o.row) else t)
    ensures AddAll(next, AddedRows(runs[1..], today)) == AddAll(t, AddedRows(runs, today))
  {
    var o := OutcomeOf(runs[0], today);
    if o.Added? {
      assert AddedRows(runs, today) == [o.row] + AddedRows(runs[1..], today);
    } else {
      assert AddedRows(runs, today) == AddedRows(runs[1..], today);
    }
  }

  /** The `from_file` join loop over the results of the spawned tasks panics
      exactly when some host's run panics, and otherwise adds the hosts'
      rows in order, as the `from_domains` loop does. */
  lemma {:induction false} JoinLoopAddsRows(t: Table, runs: seq<HostRun>, today: Date)
    requires IsValid(today)
    ensures JoinLoop(t, Results(runs), today) ==
      (if NonePanic(runs, today) then Some(AddAll(t, AddedRows(runs, today))) else None)
    decreases |runs|
  {
    if runs != [] {
      StepOutcome(t, runs[0], today);
      AddedRowsStep(runs, today);
      assert Results(runs)[1..] == Results(runs[1..]);
      match ProcessDomainLine(runs[0])
      case None =>
      case Some(rd) =>
        match AddSuccessful(t, rd, today)
        case None =>
        case Some(added) =>
          JoinLoopAddsRows(added.0, runs[1..], today);
          AddOutcome(t, added.0, runs, today);
    }
  }

  /** When nothing panics, the table has one data row per host whose
      `-enddate` standard error is blank. */
  lemma {:induction false} OneRowPerCleanRun(runs: seq<HostRun>, today: Date)
    requires IsValid(today) && NonePanic(runs, today)
    ensures |AddedRows(runs, today)| == CleanRuns(runs)
    decreases |runs|
  {
    if runs != [] {
      AddedRowsStep(runs, today);
      OneRowPerCleanRun(runs[1..], today);
    }
  }
}

=== FILE: stable_sort.dfy ===
/** A stable sort over any comparator that is a total preorder, as Rust's
    `slice::sort_by` requires of its closure. It is an insertion sort; since
    the sorted, stable order is unique (`StableSortUnique`), it yields exactly
    what `sort_by` yields. */
module StableSort {
  import opened Prelude

  /** `cmp` is consistent when swapped, reflexive, and transitive in its
      at-most relation: a total preorder. */
  ghost predicate IsTotalPreorder<T(!new)>(cmp: (T, T) -> Ordering) {
    && (forall a, b :: cmp(b, a) == cmp(a, b).Reverse())
    && (forall a :: cmp(a, a) == Equal)
    && (forall a, b, c :: cmp(a, b) != Greater && cmp(b, c) != Greater ==> cmp(a, c) != Greater)
  }

  /** Every element is at most every later element. */
  ghost predicate Sorted<T>(cmp: (T, T) -> Ordering, s: seq<T>) {
    forall i, j :: 0 <= i < j < |s| ==> cmp(s[i], s[j]) != Greater
  }

  /** The elements of `s` that compare equal to `x`, in their order in `s`. */
  function Class<T>(cmp: (T, T) -> Ordering, s: seq<T>, x: T): seq<T>
  {
    if s == [] then []
    else (if cmp(s[0], x) == Equal then [s[0]] else []) + Class(cmp, s[1..], x)
  }

  /** `r` keeps, for every class of equal-comparing elements, the order those
      elements had in `s`. */
  ghost predicate Stable<T(!new)>(cmp: (T, T) -> Ordering, s: seq<T>, r: seq<T>) {
    forall x :: Class(cmp, r, x) == Class(cmp, s, x)
  }

  /** Placing `x` before the first element it is at most: after every
      element strictly below it, before every element equal to it. */
  function Insert<T>(cmp: (T, T) -> Ordering, x: T, s: seq<T>): (r: seq<T>)
    ensures multiset(r) == multiset{x} + multiset(s)
  {
    if s == [] || cmp(x, s[0]) != Greater then [x] + s
    else
      assert s == [s[0]] + s[1..];
      [s[0]] + Insert(cmp, x, s[1..])
  }

  /** The stable sort: a permutation of `s`, ordered by `cmp`, with
      equal-comparing elements in their original order. */
  function SortBy<T(!new)>(cmp: (T, T) -> Ordering, s: seq<T>): (r: seq<T>)
    requires IsTotalPreorder(cmp)
    ensures multiset(r) == multiset(s)
    ensures Sorted(cmp, r)
    ensures Stable(cmp, s, r)
  {
    if s == [] then []
    else
      var t := SortBy(cmp, s[1..]);
      InsertKeepsSortFacts(cmp, s, t);
      Insert(cmp, s[0], t)
  }

  // ---------------------------------------------------------------------------
  // Insertion

  lemma ClassCons<T>(cmp: (T, T) -> Ordering, a: T, s: seq<T>, y: T)
    ensures Class(cmp, [a] + s, y) == (if cmp(a, y) == Equal then [a] else []) + Class(cmp, s, y)
  {
    assert ([a] + s)[1..] == s;
  }

  lemma {:induction false} InsertClass<T(!new)>(cmp: (T, T) -> Ordering, x: T, s: seq<T>, y: T)
    requires IsTotalPreorder(cmp)
    ensures Class(cmp, Insert(cmp, x, s), y)
         == (if cmp(x, y) == Equal then [x] else []) + Class(cmp, s, y)
  {
    if s == [] || cmp(x, s[0]) != Greater {
      ClassCons(cmp, x, s, y);
    } else {
      InsertClass(cmp, x, s[1..], y);
      // s[0] is strictly below x, so it is strictly below anything x equals
      if cmp(x, y) == Equal {
        assert cmp(y, s[0]) == Greater;
      }
      assert s == [s[0]] + s[1..];
      ClassPast(cmp, s[0], x, Insert(cmp, x, s[1..]), s[1..], y);
    }
  }

  /** Putting `a` in front of `r` and of `t` keeps the relation between their
      classes, when `a` is not in the class that `x` may join. */
  lemma ClassPast<T>(cmp: (T, T) -> Ordering, a: T, x: T, r: seq<T>, t: seq<T>, y: T)
    requires cmp(x, y) == Equal ==> cmp(a, y) != Equal
    requires Class(cmp, r, y) == (if cmp(x, y) == Equal then [x] else []) + Class(cmp, t, y)
    ensures Class(cmp, [a] + r, y) == (if cmp(x, y) == Equal then [x] else []) + Class(cmp, [a] + t, y)
  {
    ClassCons(cmp, a, r, y);
    ClassCons(cmp, a, t, y);
  }

  lemma {:induction false} InsertSorted<T(!new)>(cmp: (T, T) -> Ordering, x: T, s: seq<T>)
    requires IsTotalPreorder(cmp) && Sorted(cmp, s)
    ensures Sorted(cmp, Insert(cmp, x, s))
  {
    var r := Insert(cmp, x, s);
    if s == [] {
    } else if cmp(x, s[0]) != Greater {
      forall i, j | 0 <= i < j < |r|
        ensures cmp(r[i], r[j]) != Greater
      {
        assert r[j] == s[j - 1];
        if i == 0 {
          if j > 1 {
            assert cmp(s[0], s[j - 1]) != Greater;
          }
        } else {
          assert r[i] == s[i - 1];
        }
      }
    } else {
      assert cmp(s[0], x) == Less;
      var r' := Insert(cmp, x, s[1..]);
      InsertSorted(cmp, x, s[1..]);
      assert r == [s[0]] + r';
      forall i, j | 0 <= i < j < |r|
        ensures cmp(r[i], r[j]) != Greater
      {
        assert r[j] == r'[j - 1];
        if i == 0 {
          assert r[j] in multiset(r');
          if r[j] != x {
            assert r[j] in multiset(s[1..]);
            var k :| 0 <= k < |s[1..]| && s[1..][k] == r[j];
            assert s[k + 1] == r[j];
          }
        } else {
          assert r[i] == r'[i - 1];
        }
      }
    }
  }

  /** Inserting the head of `s` into a sorted, stable rearrangement of its
      tail gives a sorted, stable rearrangement of `s`. */
  lemma InsertKeepsSortFacts<T(!new)>(cmp: (T, T) -> Ordering, s: seq<T>, t: seq<T>)
    requires IsTotalPreorder(cmp) && s != []
    requires Sorted(cmp, t) && multiset(t) == multiset(s[1..]) && Stable(cmp, s[1..], t)
    ensures var r := Insert(cmp, s[0], t);
      Sorted(cmp, r) && multiset(r) == multiset(s) && Stable(cmp, s, r)
  {
    InsertSorted(cmp, s[0], t);
    assert s == [s[0]] + s[1..];
    forall y
      ensures Class(cmp, Insert(cmp, s[0], t), y) == Class(cmp, s, y)
    {
      InsertClass(cmp, s[0], t, y);
      ClassCons(cmp, s[0], s[1..], y);
    }
  }

  // ---------------------------------------------------------------------------
  // Classes

  lemma {:induction false} ClassMembers<T(!new)>(cmp: (T, T) -> Ordering, s: seq<T>, x: T)
    ensures forall y :: y in Class(cmp, s, x) <==> y in s && cmp(y, x) == Equal
  {
    if s != [] {
      ClassMembers(cmp, s[1..], x);
      assert s == [s[0]] + s[1..];
    }
  }

  /** An element of `s` lies in its own class within `s`. */
  lemma InOwnClass<T(!new)>(cmp: (T, T) -> Ordering, s: seq<T>, i: int)
    requires IsTotalPreorder(cmp) && 0 <= i < |s|
    ensures s[i] in Class(cmp, s, s[i])
  {
    ClassMembers(cmp, s, s[i]);
  }

  lemma {:induction false} ClassConcat<T>(cmp: (T, T) -> Ordering, a: seq<T>, b: seq<T>, x: T)
    ensures Class(cmp, a + b, x) == Class(cmp, a, x) + Class(cmp, b, x)
  {
    if a != [] {
      assert (a + b)[1..] == a[1..] + b;
      ClassConcat(cmp, a[1..], b, x);
    } else {
      assert a + b == b;
    }
  }

  /** No element of `s` compares equal to `x`: the class is empty. */
  lemma {:induction false} ClassEmpty<T>(cmp: (T, T) -> Ordering, s: seq<T>, x: T)
    requires forall i :: 0 <= i < |s| ==> cmp(s[i], x) != Equal
    ensures Class(cmp, s, x) == []
  {
    if s != [] {
      ClassEmpty(cmp, s[1..], x);
    }
  }

  /** How often `y` occurs in the class of `x`: as often as in `s` when it
      compares equal to `x`, otherwise never. */
  lemma {:induction false} ClassMultiplicity<T>(cmp: (T, T) -> Ordering, s: seq<T>, x: T, y: T)
    ensures multiset(Class(cmp, s, x))[y] == if cmp(y, x) == Equal then multiset(s)[y] else 0
  {
    if s != [] {
      ClassMultiplicity(cmp, s[1..], x, y);
      assert s == [s[0]] + s[1..];
    }
  }

  /** Rearranging `s` rearranges each class. */
  lemma ClassPermuted<T(!new)>(cmp: (T, T) -> Ordering, s: seq<T>, r: seq<T>, x: T)
    requires multiset(r) == multiset(s)
    ensures multiset(Class(cmp, r, x)) == multiset(Class(cmp, s, x))
  {
    forall y
      ensures multiset(Class(cmp, r, x))[y] == multiset(Class(cmp, s, x))[y]
    {
      ClassMultiplicity(cmp, s, x, y);
      ClassMultiplicity(cmp, r, x, y);
    }
  }

  /** Rearranging `s` cannot change a class of at most one element. */
  lemma SmallClassKept<T(!new)>(cmp: (T, T) -> Ordering, s: seq<T>, r: seq<T>, x: T)
    requires multiset(r) == multiset(s) && |Class(cmp, s, x)| <= 1
    ensures Class(cmp, r, x) == Class(cmp, s, x)
  {
    ClassPermuted(cmp, s, r, x);
    SameSmallMultiset(Class(cmp, s, x), Class(cmp, r, x));
  }

  lemma SameSmallMultiset<T>(a: seq<T>, b: seq<T>)
    requires multiset(a) == multiset(b) && |a| <= 1
    ensures a == b
  {
    assert |b| == |multiset(b)| == |multiset(a)| == |a|;
    if |a| == 1 {
      assert multiset(a) == multiset{a[0]};
      assert b[0] in multiset(b);
    }
  }

  /** The `i`-th element of `r`, when in the class of `x`, sits in that class
      after the class members that precede it in `r`. */
  lemma ClassIndexed<T>(cmp: (T, T) -> Ordering, r: seq<T>, x: T, i: int)
    requires 0 <= i < |r| && cmp(r[i], x) == Equal
    ensures |Class(cmp, r[..i], x)| < |Class(cmp, r, x)|
    ensures Class(cmp, r, x)[|Class(cmp, r[..i], x)|] == r[i]
  {
    assert r == r[..i] + ([r[i]] + r[i + 1..]);
    ClassConcat(cmp, r[..i], [r[i]] + r[i + 1..], x);
    ClassCons(cmp, r[i], r[i + 1..], x);
  }

  /** A class member at `i` makes the class of the prefix grow past `i`. */
  lemma ClassPrefixGrows<T>(cmp: (T, T) -> Ordering, r: seq<T>, x: T, i: int, j: int)
    requires 0 <= i < j <= |r| && cmp(r[i], x) == Equal
    ensures |Class(cmp, r[..i], x)| < |Class(cmp, r[..j], x)|
  {
    assert r[..j] == r[..i] + ([r[i]] + r[i + 1..j]);
    ClassConcat(cmp, r[..i], [r[i]] + r[i + 1..j], x);
    ClassCons(cmp, r[i], r[i + 1..j], x);
  }

  /** A class of a sequence sorted by `order` is itself sorted by `order`. */
  lemma {:induction false} ClassSorted<T(!new)>(cmp: (T, T) -> Ordering, order: (T, T) -> Ordering, s: seq<T>, x: T)
    requires Sorted(order, s)
    ensures Sorted(order, Class(cmp, s, x))
  {
    if s != [] {
      var rest := Class(cmp, s[1..], x);
      assert Sorted(order, s[1..]) by {
        forall i, j | 0 <= i < j < |s[1..]|
          ensures order(s[1..][i], s[1..][j]) != Greater
        {
          assert s[1..][i] == s[i + 1] && s[1..][j] == s[j + 1];
        }
      }
      ClassSorted(cmp, order, s[1..], x);
      ClassMembers(cmp, s[1..], x);
      if cmp(s[0], x) == Equal {
        var c := [s[0]] + rest;
        forall i, j | 0 <= i < j < |c|
          ensures order(c[i], c[j]) != Greater
        {
          if i == 0 {
            assert c[j] == rest[j - 1] && rest[j - 1] in rest;
            assert c[j] in s[1..];
            var k :| 0 <= k < |s[1..]| && s[1..][k] == c[j];
            assert s[k + 1] == c[j];
          } else {
            assert c[i] == rest[i - 1] && c[j] == rest[j - 1];
          }
        }
      }
    }
  }

  /** Sorting stably by `cmp` a sequence already sorted by `order` leaves
      elements that `cmp` finds equal in `order`: the result is ordered by
      `cmp` first and `order` second. */
  lemma StableKeepsOrder<T(!new)>(cmp: (T, T) -> Ordering, order: (T, T) -> Ordering, s: seq<T>, r: seq<T>)
    requires IsTotalPreorder(cmp) && Sorted(order, s) && Stable(cmp, s, r)
    ensures forall i, j :: 0 <= i < j < |r| && cmp(r[i], r[j]) == Equal ==> order(r[i], r[j]) != Greater
  {
    forall i, j | 0 <= i < j < |r| && cmp(r[i], r[j]) == Equal
      ensures order(r[i], r[j]) != Greater
    {
      var x := r[j];
      var c := Class(cmp, r, x);
      ClassIndexed(cmp, r, x, i);
      ClassIndexed(cmp, r, x, j);
      ClassPrefixGrows(cmp, r, x, i, j);
      assert c == Class(cmp, s, x);
      ClassSorted(cmp, order, s, x);
      var p, q := |Class(cmp, r[..i], x)|, |Class(cmp, r[..j], x)|;
      assert order(c[p], c[q]) != Greater;
    }
  }

  // ---------------------------------------------------------------------------
  // Uniqueness

  /** Two sequences sorted by the same comparator that are both stable
      rearrangements of `s` are equal: the sorted, stable order is unique. */
  lemma {:induction false} StableSortUnique<T(!new)>(cmp: (T, T) -> Ordering, s: seq<T>, a: seq<T>, b: seq<T>)
    requires IsTotalPreorder(cmp)
    requires Sorted(cmp, a) && Stable(cmp, s, a)
    requires Sorted(cmp, b) && Stable(cmp, s, b)
    ensures a == b
    decreases |a|
  {
    if a == [] && b != [] {
      InOwnClass(cmp, b, 0);
      assert false;
    } else if a != [] && b == [] {
      InOwnClass(cmp, a, 0);
      assert false;
    } else if a != [] {
      HeadsAgree(cmp, s, a, b);
      forall y
        ensures Class(cmp, b[1..], y) == Class(cmp, a[1..], y)
      {
        assert a == [a[0]] + a[1..] && b == [b[0]] + b[1..];
        assert Class(cmp, a, y) == Class(cmp, s, y) == Class(cmp, b, y);
        ClassTail(cmp, a[0], a[1..], b[1..], y);
      }
      assert Sorted(cmp, a[1..]) && Sorted(cmp, b[1..]);
      StableSortUnique(cmp, a[1..], a[1..], b[1..]);
      assert a == [a[0]] + a[1..] && b == [b[0]] + b[1..];
    }
  }

  /** Sequences with the same head and the same class have tails with the
      same class. */
  lemma ClassTail<T>(cmp: (T, T) -> Ordering, h: T, a: seq<T>, b: seq<T>, y: T)
    requires Class(cmp, [h] + a, y) == Class(cmp, [h] + b, y)
    ensures Class(cmp, a, y) == Class(cmp, b, y)
  {
    ClassCons(cmp, h, a, y);
    ClassCons(cmp, h, b, y);
    if cmp(h, y) == Equal {
      assert Class(cmp, a, y) == Class(cmp, [h] + a, y)[1..];
      assert Class(cmp, b, y) == Class(cmp, [h] + b, y)[1..];
    }
  }

  /** The first elements of two sorted, stable rearrangements agree. */
  lemma HeadsAgree<T(!new)>(cmp: (T, T) -> Ordering, s: seq<T>, a: seq<T>, b: seq<T>)
    requires IsTotalPreorder(cmp) && a != [] && b != []
    requires Sorted(cmp, a) && Stable(cmp, s, a)
    requires Sorted(cmp, b) && Stable(cmp, s, b)
    ensures a[0] == b[0]
  {
    // each head is at most the other, so they compare equal
    HeadNotAbove(cmp, s, a, b);
    HeadNotAbove(cmp, s, b, a);
    assert cmp(b[0], a[0]) == Equal;
    // and each heads the class of the other in its sequence
    HeadOfClass(cmp, a, a[0]);
    HeadOfClass(cmp, b, a[0]);
    assert Class(cmp, a, a[0]) == Class(cmp, s, a[0]) == Class(cmp, b, a[0]);
  }

  /** The head of a sorted sequence is at most the head of any other
      sequence with the same classes. */
  lemma HeadNotAbove<T(!new)>(cmp: (T, T) -> Ordering, s: seq<T>, a: seq<T>, b: seq<T>)
    requires IsTotalPreorder(cmp) && a != [] && b != []
    requires Sorted(cmp, a) && Stable(cmp, s, a) && Stable(cmp, s, b)
    ensures cmp(a[0], b[0]) != Greater
  {
    InOwnClass(cmp, b, 0);
    ClassMembers(cmp, a, b[0]);
    assert Class(cmp, a, b[0]) == Class(cmp, s, b[0]) == Class(cmp, b, b[0]);
    var i :| 0 <= i < |a| && a[i] == b[0];
    if i > 0 {
      assert cmp(a[0], a[i]) != Greater;
    }
  }

  /** The head of a sequence heads its own class there. */
  lemma HeadOfClass<T>(cmp: (T, T) -> Ordering, a: seq<T>, x: T)
    requires a != [] && cmp(a[0], x) == Equal
    ensures Class(cmp, a, x) != [] && Class(cmp, a, x)[0] == a[0]
  {
    ClassCons(cmp, a[0], a[1..], x);
    assert a == [a[0]] + a[1..];
  }
}

=== FILE: table_order.dfy ===
/** The two orderings of the report table, `Table::order_by_host` and
    `Table::order_by_remaining_days`. Both call Rust's stable `sort_by` with a
    closure that puts every header before every data row and compares data
    rows by host (`String::cmp`) or by remaining days (`i64::cmp`). */
module TableOrder {
  import opened Prelude
  import opened Text
  import opened Tables
  import opened StableSort

  /** The closure of `order_by_host`. Two rows tie exactly when both are
      headers or both are data rows for the same host. */
  function CompareHosts(a: TableRow, b: TableRow): (r: Ordering)
    ensures r == Equal <==> (a.Header? && b.Header?) || (a.Data? && b.Data? && a.host == b.host)
  {
    match (a, b)
    case (Header(_, _, _), Header(_, _, _)) => Equal
    case (Header(_, _, _), Data(_, _, _)) => Less
    case (Data(_, _, _), Header(_, _, _)) => Greater
    case (Data(hostA, _, _), Data(hostB, _, _)) => StrCmp(hostA, hostB)
  }

  /** The closure of `order_by_remaining_days`. Two rows tie exactly when
      both are headers or both are data rows with the same days. */
  function CompareDays(a: TableRow, b: TableRow): (r: Ordering)
    ensures r == Equal <==> (a.Header? && b.Header?) || (a.Data? && b.Data? && a.days == b.days)
  {
    match (a, b)
    case (Header(_, _, _), Header(_, _, _)) => Equal
    case (Header(_, _, _), Data(_, _, _)) => Less
    case (Data(_, _, _), Header(_, _, _)) => Greater
    case (Data(_, _, daysA), Data(_, _, daysB)) => IntCmp(daysA, daysB)
  }

  /** The host closure is a total preorder, as `sort_by` requires. */
  lemma HostOrderIsTotalPreorder()
    ensures IsTotalPreorder(CompareHosts)
  {
    forall a: TableRow, b: TableRow
      ensures CompareHosts(b, a) == CompareHosts(a, b).Reverse()
    {
      if a.Data? && b.Data? {
        StrCmpReverse(a.host, b.host);
      }
    }
    forall a: TableRow, b: TableRow, c: TableRow
      | CompareHosts(a, b) != Greater && CompareHosts(b, c) != Greater
      ensures CompareHosts(a, c) != Greater
    {
      if a.Data? && b.Data? && c.Data? {
        StrLeTransitive(a.host, b.host, c.host);
      }
    }
  }

  /** The days closure is a total preorder, as `sort_by` requires. */
  lemma DaysOrderIsTotalPreorder()
    ensures IsTotalPreorder(CompareDays)
  {
    forall a: TableRow, b: TableRow, c: TableRow
      | CompareDays(a, b) != Greater && CompareDays(b, c) != Greater
      ensures CompareDays(a, c) != Greater
    {
      if a.Data? && b.Data? && c.Data? {
        assert a.days <= b.days <= c.days;
      }
    }
  }

  /** Every header comes before every data row. */
  predicate HeadersFirst(rows: seq<TableRow>) {
    forall i, j :: 0 <= i < j < |rows| && rows[j].Header? ==> rows[i].Header?
  }

  /** `order_by_host`: the same rows, headers first, data rows by host, rows
      that tie in their original order; the column widths are untouched. */
  function OrderByHost(t: Table): (r: Table)
    ensures r.lenUrl == t.lenUrl && r.lenOrg == t.lenOrg && r.lenRemaining == t.lenRemaining
    ensures multiset(r.rows) == multiset(t.rows)
    ensures HeadersFirst(r.rows)
    ensures forall i, j :: 0 <= i < j < |r.rows| && r.rows[i].Data? && r.rows[j].Data? ==>
      StrLe(r.rows[i].host, r.rows[j].host)
    ensures Stable(CompareHosts, t.rows, r.rows)
  {
    HostOrderIsTotalPreorder();
    t.(rows := SortBy(CompareHosts, t.rows))
  }

  /** `order_by_remaining_days`: the same rows, headers first, data rows by
      remaining days, rows that tie in their original order; the column
      widths are untouched. */
  function OrderByRemainingDays(t: Table): (r: Table)
    ensures r.lenUrl == t.lenUrl && r.lenOrg == t.lenOrg && r.lenRemaining == t.lenRemaining
    ensures multiset(r.rows) == multiset(t.rows)
    ensures HeadersFirst(r.rows)
    ensures forall i, j :: 0 <= i < j < |r.rows| && r.rows[i].Data? && r.rows[j].Data? ==>
      r.rows[i].days <= r.rows[j].days
    ensures Stable(CompareDays, t.rows, r.rows)
  {
    DaysOrderIsTotalPreorder();
    t.(rows := SortBy(CompareDays, t.rows))
  }

  /** Any arrangement of the rows that is sorted by host and stable is the
      one `order_by_host` produces: the model does not depend on which
      stable sort Rust uses. */
  lemma OrderByHostUnique(t: Table, rows: seq<TableRow>)
    requires Sorted(CompareHosts, rows) && Stable(CompareHosts, t.rows, rows)
    ensures OrderByHost(t).rows == rows
  {
    HostOrderIsTotalPreorder();
    StableSortUnique(CompareHosts, t.rows, OrderByHost(t).rows, rows);
  }

  /** Any arrangement of the rows that is sorted by days and stable is the
      one `order_by_remaining_days` produces. */
  lemma OrderByRemainingDaysUnique(t: Table, rows: seq<TableRow>)
    requires Sorted(CompareDays, rows) && Stable(CompareDays, t.rows, rows)
    ensures OrderByRemainingDays(t).rows == rows
  {
    DaysOrderIsTotalPreorder();
    StableSortUnique(CompareDays, t.rows, OrderByRemainingDays(t).rows, rows);
  }

  /** The order of the file report, `order_by_host` followed by
      `order_by_remaining_days`: data rows by remaining days, and rows with
      the same remaining days by host. */
  lemma HostThenDays(t: Table)
    ensures var r := OrderByRemainingDays(OrderByHost(t)).rows;
      && HeadersFirst(r)
      && (forall i, j :: 0 <= i < j < |r| && r[i].Data? && r[j].Data? ==>
            r[i].days < r[j].days || (r[i].days == r[j].days && StrLe(r[i].host, r[j].host)))
  {
    var s := OrderByHost(t).rows;
    var r := OrderByRemainingDays(OrderByHost(t)).rows;
    HostOrderIsTotalPreorder();
    DaysOrderIsTotalPreorder();
    StableKeepsOrder(CompareDays, CompareHosts, s, r);
  }

  /** No two data rows share a number of remaining days. */
  predicate DistinctDays(rows: seq<TableRow>) {
    forall i, j :: 0 <= i < j < |rows| && rows[i].Data? && rows[j].Data? ==> rows[i].days != rows[j].days
  }

  /** When no two data rows share a number of remaining days, sorting by host
      first makes no difference to the final order. */
  lemma HostOrderIrrelevantForDistinctDays(t: Table)
    requires DistinctDays(t.rows)
    ensures OrderByRemainingDays(OrderByHost(t)) == OrderByRemainingDays(t)
  {
    var s := OrderByHost(t).rows;
    var r := OrderByRemainingDays(OrderByHost(t)).rows;
    DaysOrderIsTotalPreorder();
    forall x
      ensures Class(CompareDays, r, x) == Class(CompareDays, t.rows, x)
    {
      if x.Header? {
        HeaderClassesAgree(s, x);
        HeaderClassesAgree(t.rows, x);
      } else {
        AtMostOneWithDays(t.rows, x);
        SmallClassKept(CompareDays, t.rows, s, x);
      }
    }
    OrderByRemainingDaysUnique(t, r);
  }

  /** The headers form the same class under either closure. */
  lemma {:induction false} HeaderClassesAgree(s: seq<TableRow>, x: TableRow)
    requires x.Header?
    ensures Class(CompareDays, s, x) == Class(CompareHosts, s, x)
  {
    if s != [] {
      HeaderClassesAgree(s[1..], x);
    }
  }

  lemma {:induction false} AtMostOneWithDays(rows: seq<TableRow>, x: TableRow)
    requires DistinctDays(rows) && x.Data?
    ensures |Class(CompareDays, rows, x)| <= 1
  {
    if rows != [] {
      var rest := rows[1..];
      if CompareDays(rows[0], x) == Equal {
        forall i | 0 <= i < |rest|
          ensures CompareDays(rest[i], x) != Equal
        {
          assert rest[i] == rows[i + 1];
        }
        ClassEmpty(CompareDays, rest, x);
      } else {
        assert DistinctDays(rest) by {
          forall i, j | 0 <= i < j < |rest| && rest[i].Data? && rest[j].Data?
            ensures rest[i].days != rest[j].days
          {
            assert rest[i] == rows[i + 1] && rest[j] == rows[j + 1];
          }
        }
        AtMostOneWithDays(rest, x);
      }
    }
  }

  /** Sorting by host first does matter when remaining days tie: two hosts
      with the same days, added out of alphabetical order, come out
      alphabetically, where sorting by days alone keeps them in the order
      they were added. */
  lemma HostOrderMattersOnTies(t: Table, b: TableRow, a: TableRow)
    requires t.rows == [b, a]
    requires a.Data? && b.Data? && a.days == b.days && StrCmp(a.host, b.host) == Less
    ensures OrderByRemainingDays(t).rows == [b, a]
    ensures OrderByRemainingDays(OrderByHost(t)).rows == [a, b]
  {
    TiedRowsSorted(b, a);
    OrderByRemainingDaysUnique(t, [b, a]);
    SwappedHosts(b, a);
    OrderByHostUnique(t, [a, b]);
    TiedRowsSorted(a, b);
    OrderByRemainingDaysUnique(OrderByHost(t), [a, b]);
  }

  /** Two data rows with the same days are sorted by days either way round. */
  lemma TiedRowsSorted(x: TableRow, y: TableRow)
    requires x.Data? && y.Data? && x.days == y.days
    ensures Sorted(CompareDays, [x, y])
  {
  }

  /** Two data rows whose hosts are out of order are sorted by host once
      swapped, and swapping them is stable: no class holds both. */
  lemma SwappedHosts(b: TableRow, a: TableRow)
    requires a.Data? && b.Data? && StrCmp(a.host, b.host) == Less
    ensures Sorted(CompareHosts, [a, b]) && Stable(CompareHosts, [b, a], [a, b])
  {
    HostOrderIsTotalPreorder();
    forall x
      ensures Class(CompareHosts, [a, b], x) == Class(CompareHosts, [b, a], x)
    {
      ClassCons(CompareHosts, a, [b], x);
      ClassCons(CompareHosts, b, [a], x);
      ClassCons(CompareHosts, a, [], x);
      ClassCons(CompareHosts, b, [], x);
      assert [a] + [] == [a] && [b] + [] == [b];
      assert CompareHosts(a, x) != Equal || CompareHosts(b, x) != Equal;
    }
  }
}

=== FILE: tables.dfy ===
/** The report table: rows, the three running column widths, adding rows and
    rendering the rows as left-justified, space-padded lines. */
module Tables {
  import opened Prelude
  import opened Text

  /** A row of the report: the column titles, or the result for one host. */
  datatype TableRow =
    | Header(host: string, organisation: string, title: string)
    | Data(host: string, organisation: string, days: i64)

  /** `TableRow::new`: a data row whose organisation is wrapped in double
      quotes; host and days are stored as given. */
  function NewRow(host: string, organisation: string, remaining: i64): (r: TableRow)
    ensures r.Data? && r.host == host && r.days == remaining
    ensures |r.organisation| == |organisation| + 2
    ensures r.organisation[0] == '"' && r.organisation[|r.organisation| - 1] == '"'
    ensures r.organisation[1..|r.organisation| - 1] == organisation
  {
    Data(host, "\"" + organisation + "\"", remaining)
  }

  /** `TableRow::header`: the titles HOST, ORGANISATION and DAYS, whose
      columns start 5, 13 and 5 characters wide. */
  function HeaderRow(): (r: TableRow)
    ensures r.Header?
    ensures ByteLen(r.host) + 1 == 5 && ByteLen(r.organisation) + 1 == 13 && ByteLen(r.title) + 1 == 5
  {
    Header("HOST", "ORGANISATION", "DAYS")
  }

  /** The text of the third column: the title, or the days in decimal. */
  function DaysText(row: TableRow): string {
    match row
    case Header(_, _, title) => title
    case Data(_, _, days) => IntToString(days)
  }

  /** `Table`: the rows in order and the host, organisation and days column
      widths. */
  datatype Table = Table(rows: seq<TableRow>, lenUrl: nat, lenOrg: nat, lenRemaining: nat)

  /** `Table::new` */
  function NewTable(): (t: Table)
    ensures t.rows == [] && t.lenUrl == 0 && t.lenOrg == 0 && t.lenRemaining == 0
  {
    Table([], 0, 0, 0)
  }

  /** Each field of `row` is strictly shorter, in bytes, than its column. */
  predicate RowFits(row: TableRow, lenUrl: nat, lenOrg: nat, lenRemaining: nat) {
    ByteLen(row.host) < lenUrl && ByteLen(row.organisation) < lenOrg && ByteLen(DaysText(row)) < lenRemaining
  }

  /** Every stored field is strictly narrower than its column. */
  predicate Fits(t: Table) {
    forall i :: 0 <= i < |t.rows| ==> RowFits(t.rows[i], t.lenUrl, t.lenOrg, t.lenRemaining)
  }

  /** `Table::add`. A header overwrites the three widths with its field
      lengths in bytes plus one; a data row widens each column to its field
      length in bytes plus one where that is wider, so widths never shrink.
      Either way the row is appended. */
  function Add(t: Table, row: TableRow): (r: Table)
    ensures r.rows == t.rows + [row]
    ensures row.Header? ==>
      r.lenUrl == ByteLen(row.host) + 1 && r.lenOrg == ByteLen(row.organisation) + 1
      && r.lenRemaining == ByteLen(row.title) + 1
    ensures row.Data? ==>
      r.lenUrl == Max(t.lenUrl, ByteLen(row.host) + 1)
      && r.lenOrg == Max(t.lenOrg, ByteLen(row.organisation) + 1)
      && r.lenRemaining == Max(t.lenRemaining, ByteLen(IntToString(row.days)) + 1)
  {
    match row
    case Header(host, organisation, remaining) =>
      Table(t.rows + [row], ByteLen(host) + 1, ByteLen(organisation) + 1, ByteLen(remaining) + 1)
    case Data(host, organisation, remaining) =>
      var lenUrl := if ByteLen(host) + 1 > t.lenUrl then ByteLen(host) + 1 else t.lenUrl;
      var lenOrg := if ByteLen(organisation) + 1 > t.lenOrg then ByteLen(organisation) + 1 else t.lenOrg;
      var days := IntToString(remaining);
      var lenRemaining := if ByteLen(days) + 1 > t.lenRemaining then ByteLen(days) + 1 else t.lenRemaining;
      Table(t.rows + [row], lenUrl, lenOrg, lenRemaining)
  }

  /** Adding a data row keeps every stored field narrower than its column,
      and so does adding the header to an empty table. */
  lemma AddKeepsFits(t: Table, row: TableRow)
    requires (row.Data? && Fits(t)) || (row.Header? && t.rows == [])
    ensures Fits(Add(t, row))
  {
    var r := Add(t, row);
    forall i | 0 <= i < |r.rows|
      ensures RowFits(r.rows[i], r.lenUrl, r.lenOrg, r.lenRemaining)
    {
      if i < |t.rows| {
        assert r.rows[i] == t.rows[i];
        assert RowFits(t.rows[i], t.lenUrl, t.lenOrg, t.lenRemaining);
      } else {
        assert r.rows[i] == row;
      }
    }
  }

  /** Rows added one after another: they are appended in order. */
  function AddAll(t: Table, rows: seq<TableRow>): (r: Table)
    ensures r.rows == t.rows + rows
    decreases |rows|
  {
    if rows == [] then t
    else
      assert (t.rows + [rows[0]]) + rows[1..] == t.rows + rows;
      AddAll(Add(t, rows[0]), rows[1..])
  }

  /** A new table with the header added, as both report loops start. */
  function StartTable(): (t: Table)
    ensures t.rows == [HeaderRow()] && Fits(t)
    ensures t.lenUrl == 5 && t.lenOrg == 13 && t.lenRemaining == 5
  {
    AddKeepsFits(NewTable(), HeaderRow());
    Add(NewTable(), HeaderRow())
  }

  predicate AllData(rows: seq<TableRow>) {
    forall r :: r in rows ==> r.Data?
  }

  /** The longest host of `rows` in bytes, plus one (0 for no rows). */
  function HostWidth(rows: seq<TableRow>): (w: nat)
    ensures forall i :: 0 <= i < |rows| ==> ByteLen(rows[i].host) < w
    ensures rows != [] ==> exists i :: 0 <= i < |rows| && w == ByteLen(rows[i].host) + 1
  {
    if rows == [] then 0
    else
      var w := Max(ByteLen(rows[0].host) + 1, HostWidth(rows[1..]));
      assert forall i :: 1 <= i < |rows| ==> rows[i] == rows[1..][i - 1];
      w
  }

  /** The longest organisation of `rows` in bytes, plus one (0 for no rows). */
  function OrgWidth(rows: seq<TableRow>): (w: nat)
    ensures forall i :: 0 <= i < |rows| ==> ByteLen(rows[i].organisation) < w
    ensures rows != [] ==> exists i :: 0 <= i < |rows| && w == ByteLen(rows[i].organisation) + 1
  {
    if rows == [] then 0
    else
      var w := Max(ByteLen(rows[0].organisation) + 1, OrgWidth(rows[1..]));
      assert forall i :: 1 <= i < |rows| ==> rows[i] == rows[1..][i - 1];
      w
  }

  /** The longest days text of `rows` in bytes, plus one (0 for no rows). */
  function DaysWidth(rows: seq<TableRow>): (w: nat)
    ensures forall i :: 0 <= i < |rows| ==> ByteLen(DaysText(rows[i])) < w
    ensures rows != [] ==> exists i :: 0 <= i < |rows| && w == ByteLen(DaysText(rows[i])) + 1
  {
    if rows == [] then 0
    else
      var w := Max(ByteLen(DaysText(rows[0])) + 1, DaysWidth(rows[1..]));
      assert forall i :: 1 <= i < |rows| ==> rows[i] == rows[1..][i - 1];
      w
  }

  /** Adding data rows leaves each width at the larger of its old value and
      the longest new field plus one. */
  lemma AddAllWidths(t: Table, rows: seq<TableRow>)
    requires AllData(rows)
    ensures AddAll(t, rows).lenUrl == Max(t.lenUrl, HostWidth(rows))
    ensures AddAll(t, rows).lenOrg == Max(t.lenOrg, OrgWidth(rows))
    ensures AddAll(t, rows).lenRemaining == Max(t.lenRemaining, DaysWidth(rows))
  {
    AddAllHostWidth(t, rows);
    AddAllOrgWidth(t, rows);
    AddAllDaysWidth(t, rows);
  }

  lemma {:induction false} AddAllHostWidth(t: Table, rows: seq<TableRow>)
    requires AllData(rows)
    ensures AddAll(t, rows).lenUrl == Max(t.lenUrl, HostWidth(rows))
    decreases |rows|
  {
    if rows != [] {
      assert rows[0] in rows;
      assert AllData(rows[1..]) by {
        forall r | r in rows[1..] ensures r.Data? {
          assert r in rows;
        }
      }
      AddAllHostWidth(Add(t, rows[0]), rows[1..]);
    }
  }

  lemma {:induction false} AddAllOrgWidth(t: Table, rows: seq<TableRow>)
    requires AllData(rows)
    ensures AddAll(t, rows).lenOrg == Max(t.lenOrg, OrgWidth(rows))
    decreases |rows|
  {
    if rows != [] {
      assert rows[0] in rows;
      assert AllData(rows[1..]) by {
        forall r | r in rows[1..] ensures r.Data? {
          assert r in rows;
        }
      }
      AddAllOrgWidth(Add(t, rows[0]), rows[1..]);
    }
  }

  lemma {:induction false} AddAllDaysWidth(t: Table, rows: seq<TableRow>)
    requires AllData(rows)
    ensures AddAll(t, rows).lenRemaining == Max(t.lenRemaining, DaysWidth(rows))
    decreases |rows|
  {
    if rows != [] {
      assert rows[0] in rows;
      assert AllData(rows[1..]) by {
        forall r | r in rows[1..] ensures r.Data? {
          assert r in rows;
        }
      }
      AddAllDaysWidth(Add(t, rows[0]), rows[1..]);
    }
  }

  /** Adding data rows keeps every stored field narrower than its column. */
  lemma {:induction false} AddAllKeepsFits(t: Table, rows: seq<TableRow>)
    requires AllData(rows) && Fits(t)
    ensures Fits(AddAll(t, rows))
    decreases |rows|
  {
    if rows != [] {
      AddKeepsFits(t, rows[0]);
      AddAllKeepsFits(Add(t, rows[0]), rows[1..]);
    }
  }

  /** After `new()`, `add(header())` and any number of data rows, each width
      is the larger of the title's length and the widest field, plus one, and
      every stored field is strictly narrower than its column. */
  lemma BuildWidths(rows: seq<TableRow>)
    requires AllData(rows)
    ensures var t := AddAll(StartTable(), rows);
      && t.rows == [HeaderRow()] + rows
      && t.lenUrl == Max(5, HostWidth(rows))
      && t.lenOrg == Max(13, OrgWidth(rows))
      && t.lenRemaining == Max(5, DaysWidth(rows))
      && Fits(t)
  {
    AddAllWidths(StartTable(), rows);
    AddAllKeepsFits(StartTable(), rows);
  }

  /** A header added to a non-empty table resets the widths to the titles'
      widths, so a row added before it whose host is longer than the title
      no longer fits. */
  lemma LateHeaderResetsWidths(t: Table)
    ensures var r := Add(t, HeaderRow());
      r.lenUrl == 5 && r.lenOrg == 13 && r.lenRemaining == 5
    ensures (exists i :: 0 <= i < |t.rows| && ByteLen(t.rows[i].host) >= 5) ==> !Fits(Add(t, HeaderRow()))
  {
    var r := Add(t, HeaderRow());
    if i :| 0 <= i < |t.rows| && ByteLen(t.rows[i].host) >= 5 {
      assert r.rows[i] == t.rows[i];
      assert !RowFits(r.rows[i], r.lenUrl, r.lenOrg, r.lenRemaining);
    }
  }

  // ---------------------------------------------------------------------------
  // Rendering

  /** `TableRow::print` as a line formatter: the host padded to the host
      width, a space, the organisation padded to the organisation width, a
      space, and the days text padded to 5. */
  function RenderRow(row: TableRow, lenUrl: nat, lenOrg: nat): (line: string)
    ensures |line| == Max(|row.host|, lenUrl) + 1 + Max(|row.organisation|, lenOrg) + 1
                      + Max(|DaysText(row)|, 5)
  {
    PadRight(row.host, lenUrl) + " " + PadRight(row.organisation, lenOrg) + " "
      + PadRight(DaysText(row), 5)
  }

  /** `Table::print` as a pure render: one line per row, in row order, all
      laid out with the host and organisation widths (the days width is not
      used). */
  function Render(t: Table): (lines: seq<string>)
    ensures |lines| == |t.rows|
    ensures forall i :: 0 <= i < |t.rows| ==> lines[i] == RenderRow(t.rows[i], t.lenUrl, t.lenOrg)
  {
    seq(|t.rows|, i requires 0 <= i < |t.rows| => RenderRow(t.rows[i], t.lenUrl, t.lenOrg))
  }

  /** The days width plays no part in the rendering. */
  lemma RenderIgnoresDaysWidth(t: Table, k: nat)
    ensures Render(t.(lenRemaining := k)) == Render(t)
  {
  }

  /** Text that does not end in whitespace. */
  predicate EndsSolid(s: string) {
    s == [] || !IsWhitespace(s[|s| - 1])
  }

  /** In a row that fits its columns the fields sit at fixed offsets: each
      field is followed by padding spaces up to its column width and by one
      separating space, and trimming each column gives the field back. */
  lemma RenderedColumns(row: TableRow, lenUrl: nat, lenOrg: nat, lenRemaining: nat)
    requires RowFits(row, lenUrl, lenOrg, lenRemaining)
    requires EndsSolid(row.host) && EndsSolid(row.organisation) && EndsSolid(DaysText(row))
    ensures var line := RenderRow(row, lenUrl, lenOrg);
      && |line| == lenUrl + lenOrg + 2 + Max(|DaysText(row)|, 5)
      && line[lenUrl - 1] == ' ' && line[lenUrl] == ' '
      && line[lenUrl + lenOrg] == ' ' && line[lenUrl + lenOrg + 1] == ' '
      && TrimEnd(line[..lenUrl]) == row.host
      && TrimEnd(line[lenUrl + 1..lenUrl + 1 + lenOrg]) == row.organisation
      && TrimEnd(line[lenUrl + lenOrg + 2..]) == DaysText(row)
  {
    LineColumns(row.host, row.organisation, DaysText(row), lenUrl, lenOrg);
  }

  lemma LineColumns(host: string, org: string, days: string, lenUrl: nat, lenOrg: nat)
    requires |host| < lenUrl && |org| < lenOrg
    requires EndsSolid(host) && EndsSolid(org) && EndsSolid(days)
    ensures var line := PadRight(host, lenUrl) + " " + PadRight(org, lenOrg) + " " + PadRight(days, 5);
      && |line| == lenUrl + lenOrg + 2 + Max(|days|, 5)
      && line[lenUrl - 1] == ' ' && line[lenUrl] == ' '
      && line[lenUrl + lenOrg] == ' ' && line[lenUrl + lenOrg + 1] == ' '
      && TrimEnd(line[..lenUrl]) == host
      && TrimEnd(line[lenUrl + 1..lenUrl + 1 + lenOrg]) == org
      && TrimEnd(line[lenUrl + lenOrg + 2..]) == days
  {
    var h := PadRight(host, lenUrl);
    var o := PadRight(org, lenOrg);
    var d := PadRight(days, 5);
    PaddedColumn(host, lenUrl);
    PaddedColumn(org, lenOrg);
    UnpadRoundTrip(days, 5);
    ThreeFields(h, o, d, lenUrl, lenOrg);
  }

  /** A field strictly narrower than its column is padded to exactly the
      column width, ends in a space, and trims back to itself. */
  lemma PaddedColumn(s: string, width: nat)
    requires |s| < width && EndsSolid(s)
    ensures |PadRight(s, width)| == width
    ensures PadRight(s, width)[width - 1] == ' '
    ensures TrimEnd(PadRight(s, width)) == s
  {
    UnpadRoundTrip(s, width);
  }

  lemma ThreeFields(h: string, o: string, d: string, a: nat, b: nat)
    requires |h| == a > 0 && |o| == b > 0
    ensures var line := h + " " + o + " " + d;
      && |line| == a + b + 2 + |d|
      && line[..a] == h && line[a - 1] == h[a - 1] && line[a] == ' '
      && line[a + 1..a + 1 + b] == o && line[a + b] == o[b - 1] && line[a + 1 + b] == ' '
      && line[a + b + 2..] == d
  {
    var line := h + " " + o + " " + d;
    assert line == h + (" " + o + " " + d);
    assert line == (h + " " + o) + (" " + d);
  }
}

=== FILE: text.dfy ===
/** String operations of Rust's `str` used by the program, on Unicode scalar values:
    substring search, `split`, `trim`, `replace` of one character, left-justified
    padding as done by `format!("{:<w$}")`, decimal formatting of integers and
    lexicographic comparison of `String`s. */
module Text {
  import opened Prelude

  // ---------------------------------------------------------------------------
  // Substring search

  /** `p` occurs in `s` starting at index `i`. */
  predicate MatchAt(s: string, p: string, i: nat) {
    i + |p| <= |s| && s[i..i + |p|] == p
  }

  /** Leftmost occurrence of `p` in `s` at or after index `i`. */
  function FindFrom(s: string, p: string, i: nat): (r: Option<nat>)
    requires i <= |s|
    ensures r.Some? ==> i <= r.value <= |s| && MatchAt(s, p, r.value)
    ensures r.Some? ==> forall j: nat :: i <= j < r.value ==> !MatchAt(s, p, j)
    ensures r.None? ==> forall j: nat :: i <= j ==> !MatchAt(s, p, j)
    decreases |s| - i
  {
    if MatchAt(s, p, i) then Some(i)
    else if i == |s| then None
    else FindFrom(s, p, i + 1)
  }

  /** Leftmost occurrence of `p` in `s`, as Rust's `str::find`. */
  function Find(s: string, p: string): (r: Option<nat>)
    ensures r.Some? ==> MatchAt(s, p, r.value)
    ensures r.Some? ==> forall j: nat :: j < r.value ==> !MatchAt(s, p, j)
    ensures r.None? ==> forall j: nat :: !MatchAt(s, p, j)
  {
    FindFrom(s, p, 0)
  }

  /** Rust's `str::contains`: the pattern occurs somewhere. */
  predicate Contains(s: string, p: string)
    ensures Contains(s, p) <==> exists i: nat :: MatchAt(s, p, i)
  {
    Find(s, p).Some?
  }

  /** The first occurrence is the one at `k` when there is a match at `k` and
      none before it. */
  lemma FindIsFirstMatch(s: string, p: string, k: nat)
    requires MatchAt(s, p, k)
    requires forall j: nat :: j < k ==> !MatchAt(s, p, j)
    ensures Find(s, p) == Some(k)
  {
  }

  /** A prefix of `s` ending before the first occurrence of `p` has none. */
  lemma NoMatchBeforeFirst(s: string, p: string, i: nat)
    requires |p| > 0 && i <= |s|
    requires forall j: nat :: j < i ==> !MatchAt(s, p, j)
    ensures !Contains(s[..i], p)
  {
    forall j: nat
      ensures !MatchAt(s[..i], p, j)
    {
      if j + |p| <= i {
        assert s[..i][j..j + |p|] == s[j..j + |p|];
        assert !MatchAt(s, p, j);
      }
    }
  }

  // ---------------------------------------------------------------------------
  // Splitting

  /** The pieces of `parts` glued back with `p` between neighbours. */
  function Join(parts: seq<string>, p: string): string
    requires |parts| >= 1
  {
    if |parts| == 1 then parts[0] else parts[0] + p + Join(parts[1..], p)
  }

  /** A character in neither the pieces nor the glue is not in the join. */
  lemma {:induction false} JoinAvoids(parts: seq<string>, p: string, c: char)
    requires |parts| >= 1 && c !in p
    requires forall k :: 0 <= k < |parts| ==> c !in parts[k]
    ensures c !in Join(parts, p)
  {
    if |parts| > 1 {
      JoinAvoids(parts[1..], p, c);
    }
  }

  /** A join ends with the last character of its last piece. */
  lemma {:induction false} JoinLast(parts: seq<string>, p: string)
    requires |parts| >= 1 && parts[|parts| - 1] != []
    ensures var j := Join(parts, p); var last := parts[|parts| - 1];
      |j| >= |last| && j[|j| - 1] == last[|last| - 1]
  {
    if |parts| > 1 {
      JoinLast(parts[1..], p);
    }
  }

  /** Rust's `str::split` with a non-empty string pattern: the pieces between
      non-overlapping occurrences of `p`, found left to right. Splitting is
      undone by joining, and no piece contains the pattern. */
  function Split(s: string, p: string): (parts: seq<string>)
    requires |p| > 0
    ensures |parts| >= 1
    ensures Join(parts, p) == s
    ensures forall k :: 0 <= k < |parts| ==> !Contains(parts[k], p)
    decreases |s|
  {
    match Find(s, p)
    case None => [s]
    case Some(i) =>
      var rest := Split(s[i + |p|..], p);
      NoMatchBeforeFirst(s, p, i);
      assert s == s[..i] + p + s[i + |p|..] by {
        assert s[i..i + |p|] == p;
      }
      [s[..i]] + rest
  }

  /** Splitting yields more than one piece exactly when the pattern occurs. */
  lemma SplitCount(s: string, p: string)
    requires |p| > 0
    ensures |Split(s, p)| == 1 <==> !Contains(s, p)
  {
  }

  /** A one-character pattern that does not occur is a character that is
      missing. */
  lemma {:induction false} CharWithoutMatch(s: string, c: char)
    requires !Contains(s, [c])
    ensures c !in s
  {
    forall i | 0 <= i < |s|
      ensures s[i] != c
    {
      assert !MatchAt(s, [c], i);
      assert s[i..i + 1] == [s[i]];
    }
  }

  /** Text in which the pattern does not occur is split into itself alone. */
  lemma SplitWithoutPattern(s: string, p: string)
    requires |p| > 0 && !Contains(s, p)
    ensures Split(s, p) == [s]
  {
  }

  /** A pattern cannot occur where one of its characters is missing. */
  lemma NoMatchWithoutChar(s: string, p: string, c: char)
    requires c in p && c !in s
    ensures !Contains(s, p)
  {
    var k :| 0 <= k < |p| && p[k] == c;
    forall j: nat
      ensures !MatchAt(s, p, j)
    {
      if j + |p| <= |s| {
        assert s[j..j + |p|][k] == s[j + k];
        assert s[j + k] in s;
      }
    }
  }

  /** When the first character of `p` does not recur in it, `p` cannot
      occur overlapping the start of an occurrence of `p`. */
  lemma NoStraddle(a: string, p: string, b: string, j: nat)
    requires |p| > 0 && p[0] !in p[1..]
    requires j < |a| < j + |p|
    ensures !MatchAt(a + p + b, p, j)
  {
    var s := a + p + b;
    var k := |a| - j;
    assert s[|a|] == p[0];
    assert p[k] == p[1..][k - 1];
    assert p[k] != s[|a|];
    if j + |p| <= |s| {
      assert s[j..j + |p|][k] == s[|a|];
    }
  }

  /** Splitting at a first occurrence of `p` after a prefix free of it, for
      patterns whose first character does not recur. */
  lemma SplitAtPattern(a: string, p: string, b: string)
    requires |p| > 0 && p[0] !in p[1..] && !Contains(a, p)
    ensures Split(a + p + b, p) == [a] + Split(b, p)
  {
    var s := a + p + b;
    assert MatchAt(s, p, |a|) by {
      assert s[|a|..|a| + |p|] == p;
    }
    forall j: nat | j < |a|
      ensures !MatchAt(s, p, j)
    {
      if j + |p| <= |a| {
        assert s[j..j + |p|] == a[j..j + |p|];
        assert !MatchAt(a, p, j);
      } else {
        NoStraddle(a, p, b, j);
      }
    }
    FindIsFirstMatch(s, p, |a|);
    assert s[..|a|] == a;
    assert s[|a| + |p|..] == b;
  }

  /** The first piece is what precedes a first occurrence. */
  lemma FirstPiece(a: string, p: string, b: string)
    requires |p| > 0 && p[0] !in p[1..] && !Contains(a, p)
    ensures Split(a + p + b, p)[0] == a
  {
    SplitAtPattern(a, p, b);
  }

  /** Text with the pattern exactly once splits into the two sides. */
  lemma SplitInTwo(a: string, p: string, b: string)
    requires |p| > 0 && p[0] !in p[1..] && !Contains(a, p) && !Contains(b, p)
    ensures Split(a + p + b, p) == [a, b]
  {
    SplitAtPattern(a, p, b);
    SplitWithoutPattern(b, p);
  }

  /** Splitting on a character that does not occur gives the whole string. */
  lemma SplitWithoutSeparator(s: string, c: char)
    requires c !in s
    ensures Split(s, [c]) == [s]
  {
  }

  /** Splitting at the first occurrence of a character. */
  lemma SplitAtFirst(a: string, c: char, b: string)
    requires c !in a
    ensures Split(a + [c] + b, [c]) == [a] + Split(b, [c])
  {
    var s := a + [c] + b;
    assert MatchAt(s, [c], |a|) by {
      assert s[|a|..|a| + 1] == [c];
    }
    forall j: nat | j < |a|
      ensures !MatchAt(s, [c], j)
    {
      assert s[j..j + 1] == [a[j]];
    }
    FindIsFirstMatch(s, [c], |a|);
    assert s[..|a|] == a;
    assert s[|a| + 1..] == b;
  }

  /** Joining pieces that do not contain a character, and splitting on that
      character, gives the pieces back. */
  lemma {:induction false} SplitJoin(parts: seq<string>, c: char)
    requires |parts| >= 1
    requires forall k :: 0 <= k < |parts| ==> c !in parts[k]
    ensures Split(Join(parts, [c]), [c]) == parts
  {
    if |parts| == 1 {
      SplitWithoutSeparator(parts[0], c);
    } else {
      SplitJoin(parts[1..], c);
      SplitAtFirst(parts[0], c, Join(parts[1..], [c]));
      assert parts == [parts[0]] + parts[1..];
    }
  }

  /** The pieces that are not empty, in order: `filter(|x| !x.is_empty())`. */
  function DropEmpty(parts: seq<string>): (r: seq<string>)
    ensures forall k :: 0 <= k < |r| ==> r[k] != []
    ensures forall x :: x in r <==> x in parts && x != []
    ensures |r| <= |parts|
  {
    if parts == [] then []
    else if parts[0] == [] then DropEmpty(parts[1..])
    else [parts[0]] + DropEmpty(parts[1..])
  }

  /** The filter works piece by piece: it keeps the order of what it keeps. */
  lemma {:induction false} DropEmptyAppend(a: seq<string>, b: seq<string>)
    ensures DropEmpty(a + b) == DropEmpty(a) + DropEmpty(b)
    decreases |a|
  {
    if a != [] {
      assert (a + b)[0] == a[0] && (a + b)[1..] == a[1..] + b;
      DropEmptyAppend(a[1..], b);
    } else {
      assert a + b == b;
    }
  }

  /** One piece is kept exactly when it is not empty. */
  lemma DropEmptyOne(x: string)
    ensures DropEmpty([x]) == if x == [] then [] else [x]
  {
  }

  // ---------------------------------------------------------------------------
  // Length in bytes

  /** The number of bytes UTF-8 uses for `c`. */
  function Utf8Width(c: char): (n: nat)
    ensures 1 <= n <= 4
    ensures n == 1 <==> c < '\U{80}'
  {
    if c < '\U{80}' then 1 else if c < '\U{800}' then 2 else if c < '\U{10000}' then 3 else 4
  }

  /** `str::len`: the length of `s` in UTF-8 bytes. */
  function ByteLen(s: string): (n: nat)
    ensures |s| <= n <= 4 * |s|
  {
    if s == [] then 0 else Utf8Width(s[0]) + ByteLen(s[1..])
  }

  /** The length in bytes is the number of characters exactly when every
      character is ASCII. */
  lemma {:induction false} ByteLenOfAscii(s: string)
    ensures ByteLen(s) == |s| <==> forall k :: 0 <= k < |s| ==> s[k] < '\U{80}'
  {
    if s != [] {
      ByteLenOfAscii(s[1..]);
      assert forall k :: 1 <= k < |s| ==> s[k] == s[1..][k - 1];
    }
  }

  /** The byte length of a concatenation is the sum of the byte lengths. */
  lemma {:induction false} ByteLenAppend(a: string, b: string)
    ensures ByteLen(a + b) == ByteLen(a) + ByteLen(b)
  {
    if a != [] {
      assert (a + b)[1..] == a[1..] + b;
      ByteLenAppend(a[1..], b);
    } else {
      assert a + b == b;
    }
  }

  /** `&s[..s.len() - n]`: `s` without its last `n` bytes. Rust panics
      (`None`) when `s` is shorter than `n` bytes or the cut falls inside a
      character. A result is the prefix of `s` that is `n` bytes shorter. */
  function DropTrailingBytes(s: string, n: nat): (r: Option<string>)
    ensures r.Some? ==> |r.value| <= |s| && r.value == s[..|r.value|]
    ensures r.Some? ==> ByteLen(r.value) + n == ByteLen(s)
    decreases |s|
  {
    if n == 0 then Some(s)
    else if s == [] then None
    else
      var w := Utf8Width(s[|s| - 1]);
      ByteLenAppend(s[..|s| - 1], [s[|s| - 1]]);
      assert s[..|s| - 1] + [s[|s| - 1]] == s;
      if w > n then None else DropTrailingBytes(s[..|s| - 1], n - w)
  }

  /** On ASCII text, any cut of at most its length succeeds. */
  lemma DropTrailingBytesOfAscii(s: string, n: nat)
    ensures n <= |s| && (forall k :: 0 <= k < |s| ==> s[k] < '\U{80}') ==> DropTrailingBytes(s, n).Some?
  {
    if n <= |s| && forall k :: 0 <= k < |s| ==> s[k] < '\U{80}' {
      var a, b := s[..|s| - n], s[|s| - n..];
      assert a + b == s;
      assert forall k :: 0 <= k < |b| ==> b[k] == s[|s| - n + k];
      ByteLenOfAscii(b);
      DropTrailingBytesOfSuffix(a, b);
    }
  }

  /** Dropping the byte length of a suffix leaves exactly what precedes it:
      every character boundary can be cut at. */
  lemma {:induction false} DropTrailingBytesOfSuffix(a: string, b: string)
    ensures DropTrailingBytes(a + b, ByteLen(b)) == Some(a)
    decreases |b|
  {
    if b != [] {
      var s := a + b;
      var b' := b[..|b| - 1];
      ByteLenAppend(b', [b[|b| - 1]]);
      assert b' + [b[|b| - 1]] == b;
      assert s[|s| - 1] == b[|b| - 1];
      assert s[..|s| - 1] == a + b';
      DropTrailingBytesOfSuffix(a, b');
    } else {
      assert a + b == a;
    }
  }

  // ---------------------------------------------------------------------------
  // Trimming

  /** Rust's `char::is_whitespace`, the Unicode White_Space property, which
      `str::trim` and its one-sided variants strip. */
  predicate IsWhitespace(c: char) {
    || '\t' <= c <= '\r' || c == ' ' || c == '\U{0085}' || c == '\U{00A0}' || c == '\U{1680}'
    || '\U{2000}' <= c <= '\U{200A}' || c == '\U{2028}' || c == '\U{2029}' || c == '\U{202F}'
    || c == '\U{205F}' || c == '\U{3000}'
  }

  /** `str::trim_start`: the longest suffix that does not start with
      whitespace; everything dropped is whitespace. */
  function TrimStart(s: string): (r: string)
    ensures |r| <= |s| && r == s[|s| - |r|..]
    ensures r == [] || !IsWhitespace(r[0])
    ensures forall k :: 0 <= k < |s| - |r| ==> IsWhitespace(s[k])
  {
    if |s| > 0 && IsWhitespace(s[0]) then TrimStart(s[1..]) else s
  }

  /** `str::trim_end`: the longest prefix that does not end with whitespace;
      everything dropped is whitespace. */
  function TrimEnd(s: string): (r: string)
    ensures |r| <= |s| && r == s[..|r|]
    ensures r == [] || !IsWhitespace(r[|r| - 1])
    ensures forall k :: |r| <= k < |s| ==> IsWhitespace(s[k])
  {
    if |s| > 0 && IsWhitespace(s[|s| - 1]) then TrimEnd(s[..|s| - 1]) else s
  }

  /** `str::trim`: whitespace removed at both ends, and nothing else: the
      result starts where `trim_start` stops, and only whitespace follows
      it. It is empty exactly when the input is whitespace only. */
  function Trim(s: string): (r: string)
    ensures TrimmedAt(s, r, |s| - |TrimStart(s)|, |s| - |TrimStart(s)| + |r|)
    ensures r == [] || (!IsWhitespace(r[0]) && !IsWhitespace(r[|r| - 1]))
    ensures r == [] <==> forall k :: 0 <= k < |s| ==> IsWhitespace(s[k])
  {
    var r := TrimEnd(TrimStart(s));
    TrimFacts(s, r);
    r
  }

  /** The facts `Trim` promises, about `trim_start` followed by `trim_end`. */
  lemma TrimFacts(s: string, r: string)
    requires r == TrimEnd(TrimStart(s))
    ensures TrimmedAt(s, r, |s| - |TrimStart(s)|, |s| - |TrimStart(s)| + |r|)
    ensures r == [] || (!IsWhitespace(r[0]) && !IsWhitespace(r[|r| - 1]))
    ensures r == [] <==> forall k :: 0 <= k < |s| ==> IsWhitespace(s[k])
  {
    TrimmedOf(s, TrimStart(s), r);
  }

  /** `r` is `s[a..b]`, and only whitespace lies before `a` and after `b`. */
  predicate TrimmedAt(s: string, r: string, a: nat, b: nat) {
    && a <= b <= |s| && r == s[a..b]
    && (forall k :: 0 <= k < a ==> IsWhitespace(s[k]))
    && (forall k :: b <= k < |s| ==> IsWhitespace(s[k]))
  }

  /** Whatever `t` and `r` are, so long as they are what `trim_start` of `s`
      and `trim_end` of `t` promise, `r` is `s` with whitespace taken off
      its two ends, its ends are solid, and it is empty exactly when `s` is
      whitespace only. */
  lemma TrimmedOf(s: string, t: string, r: string)
    requires |t| <= |s| && t == s[|s| - |t|..] && (t == [] || !IsWhitespace(t[0]))
    requires forall k :: 0 <= k < |s| - |t| ==> IsWhitespace(s[k])
    requires |r| <= |t| && r == t[..|r|] && (r == [] || !IsWhitespace(r[|r| - 1]))
    requires forall k :: |r| <= k < |t| ==> IsWhitespace(t[k])
    ensures TrimmedAt(s, r, |s| - |t|, |s| - |t| + |r|)
    ensures r == [] || (!IsWhitespace(r[0]) && !IsWhitespace(r[|r| - 1]))
    ensures r == [] <==> forall k :: 0 <= k < |s| ==> IsWhitespace(s[k])
  {
    var a := |s| - |t|;
    var b := a + |r|;
    assert r == s[a..b];
    forall k | b <= k < |s|
      ensures IsWhitespace(s[k])
    {
      assert s[k] == t[k - a];
    }
    if r != [] {
      assert r[0] == t[0];
    }
    if t != [] {
      assert t[0] == s[a] && !IsWhitespace(s[a]);
      assert 0 < |r|;
    }
  }

  /** Trailing whitespace after a string that ends in a non-space is
      removed by `trim`. */
  lemma TrimDropsTrailing(s: string, w: string)
    requires s != [] && !IsWhitespace(s[0]) && !IsWhitespace(s[|s| - 1])
    requires forall k :: 0 <= k < |w| ==> IsWhitespace(w[k])
    ensures Trim(s + w) == s
  {
    TrimsOfSolid(s, w);
  }

  /** `trim_start` keeps a solid text followed by whitespace whole, and
      `trim_end` then drops the whitespace. */
  lemma TrimsOfSolid(s: string, w: string)
    requires s != [] && !IsWhitespace(s[0]) && !IsWhitespace(s[|s| - 1])
    requires forall k :: 0 <= k < |w| ==> IsWhitespace(w[k])
    ensures TrimEnd(TrimStart(s + w)) == s
  {
    var x := s + w;
    assert TrimStart(x) == x;
    var r := TrimEnd(x);
    assert |r| >= |s| by {
      assert !IsWhitespace(x[|s| - 1]);
    }
    assert |r| <= |s| by {
      assert forall k :: |s| <= k < |x| ==> x[k] == w[k - |s|];
    }
    assert r == x[..|s|] == s;
  }

  // ---------------------------------------------------------------------------
  // Removing a character

  /** `str::replace(c, "")`: every occurrence of `c` removed, every other
      character kept as often as it occurred, in order. */
  function RemoveAll(s: string, c: char): (r: string)
    ensures c !in r
    ensures forall x :: x != c ==> multiset(r)[x] == multiset(s)[x]
    ensures c !in s ==> r == s
    ensures |r| <= |s|
  {
    if s == [] then []
    else
      assert s == [s[0]] + s[1..];
      if s[0] == c then RemoveAll(s[1..], c) else [s[0]] + RemoveAll(s[1..], c)
  }

  /** Removal works character by character: the characters kept stay in
      their order. */
  lemma {:induction false} RemoveAllAppend(a: string, b: string, c: char)
    ensures RemoveAll(a + b, c) == RemoveAll(a, c) + RemoveAll(b, c)
    decreases |a|
  {
    if a != [] {
      assert (a + b)[0] == a[0] && (a + b)[1..] == a[1..] + b;
      RemoveAllAppend(a[1..], b, c);
    } else {
      assert a + b == b;
    }
  }

  /** One character is dropped exactly when it is `c`. */
  lemma RemoveAllOne(x: char, c: char)
    ensures RemoveAll([x], c) == if x == c then [] else [x]
  {
  }

  // ---------------------------------------------------------------------------
  // Padding

  /** `n` spaces. */
  function Spaces(n: nat): (r: string)
    ensures |r| == n && forall k :: 0 <= k < n ==> r[k] == ' '
  {
    seq(n, _ => ' ')
  }

  /** `format!("{:<w$}", s)`: `s` left-justified in a field of `width`
      characters, padded with spaces and never truncated. */
  function PadRight(s: string, width: nat): (r: string)
    ensures |r| == Max(|s|, width)
    ensures r[..|s|] == s
    ensures forall k :: |s| <= k < |r| ==> r[k] == ' '
  {
    if |s| < width then s + Spaces(width - |s|) else s
  }

  /** Padding is undone by trimming the end when the text itself does not end
      in whitespace. */
  lemma UnpadRoundTrip(s: string, width: nat)
    requires s == [] || !IsWhitespace(s[|s| - 1])
    ensures TrimEnd(PadRight(s, width)) == s
  {
    var x := PadRight(s, width);
    var r := TrimEnd(x);
    assert |r| >= |s| by {
      if s != [] {
        assert x[|s| - 1] == s[|s| - 1];
      }
    }
    assert r == x[..|s|];
  }

  // ---------------------------------------------------------------------------
  // Decimal numerals

  predicate IsDigit(c: char) {
    '0' <= c <= '9'
  }

  predicate AllDigits(s: string) {
    forall k :: 0 <= k < |s| ==> IsDigit(s[k])
  }

  function DigitChar(d: nat): (c: char)
    requires d < 10
    ensures IsDigit(c)
  {
    (48 + d) as char
  }

  /** The value of a string of decimal digits, most significant first. */
  function DigitsValue(s: string): nat
    requires AllDigits(s)
  {
    if s == [] then 0 else DigitsValue(s[..|s| - 1]) * 10 + (s[|s| - 1] as int - 48)
  }

  /** The decimal numeral of `n`, without leading zeros. */
  function NatToString(n: nat): (r: string)
    ensures |r| >= 1 && AllDigits(r)
    ensures r[0] == '0' ==> n == 0
    decreases n
  {
    if n < 10 then [DigitChar(n)] else NatToString(n / 10) + [DigitChar(n % 10)]
  }

  /** Reading back a formatted numeral gives the number. */
  lemma {:induction false} NatToStringRoundTrip(n: nat)
    ensures DigitsValue(NatToString(n)) == n
  {
    if n >= 10 {
      NatToStringRoundTrip(n / 10);
      var s := NatToString(n);
      assert s[..|s| - 1] == NatToString(n / 10);
    }
  }

  /** Ten to the power `k`. */
  function Pow10(k: nat): (r: nat)
    ensures r >= 1
  {
    if k == 0 then 1 else 10 * Pow10(k - 1)
  }

  /** A numeral of `k` digits is worth less than ten to the `k`. */
  lemma {:induction false} DigitsValueBound(s: string)
    requires AllDigits(s)
    ensures DigitsValue(s) < Pow10(|s|)
  {
    if s != [] {
      var init := s[..|s| - 1];
      DigitsValueBound(init);
      assert DigitsValue(init) + 1 <= Pow10(|init|);
      assert DigitsValue(init) * 10 + 10 <= Pow10(|init|) * 10;
    }
  }

  lemma {:induction false} Pow10Monotone(i: nat, j: nat)
    requires i <= j
    ensures Pow10(i) <= Pow10(j)
    decreases j
  {
    if i < j {
      Pow10Monotone(i, j - 1);
    }
  }

  /** `i64::to_string`: the decimal numeral with a leading `-` for negative
      numbers. */
  function IntToString(n: int): (r: string)
    ensures |r| >= 1
    ensures r[0] == '-' <==> n < 0
    ensures n < 0 ==> |r| >= 2 && AllDigits(r[1..]) && r[1] != '0'
    ensures n >= 0 ==> AllDigits(r)
  {
    if n < 0 then "-" + NatToString(-n) else NatToString(n)
  }

  /** The signed numeral reads back as the number, so its length is the
      decimal length of the number including any sign. */
  lemma IntToStringRoundTrip(n: int)
    ensures var r := IntToString(n);
            (if r[0] == '-' then 0 - DigitsValue(r[1..]) else DigitsValue(r)) == n
  {
    if n < 0 {
      NatToStringRoundTrip(-n);
      assert IntToString(n)[1..] == NatToString(-n);
    } else {
      NatToStringRoundTrip(n);
    }
  }

  // ---------------------------------------------------------------------------
  // Lexicographic comparison

  /** `Ord::cmp` on `String`: lexicographic by character code, a proper
      prefix coming first. */
  function StrCmp(a: string, b: string): (r: Ordering)
    ensures r == Equal <==> a == b
    ensures |a| < |b| && a == b[..|a|] ==> r == Less
    ensures forall k :: 0 <= k < |a| && k < |b| && a[..k] == b[..k] && a[k] != b[k] ==> (r == Less <==> a[k] < b[k])
  {
    if a == [] && b == [] then Equal
    else if a == [] then Less
    else if b == [] then Greater
    else if a[0] < b[0] then Less
    else if a[0] > b[0] then Greater
    else
      assert a == [a[0]] + a[1..] && b == [b[0]] + b[1..];
      assert |a| < |b| && a == b[..|a|] ==> a[1..] == b[1..][..|a| - 1];
      var r := StrCmp(a[1..], b[1..]);
      forall k | 0 < k < |a| && k < |b| && a[..k] == b[..k] && a[k] != b[k]
        ensures r == Less <==> a[k] < b[k]
      {
        assert a[1..][..k - 1] == a[1..k] == b[1..k] == b[1..][..k - 1];
        assert a[1..][k - 1] == a[k] && b[1..][k - 1] == b[k];
      }
      r
  }

  predicate StrLe(a: string, b: string) {
    StrCmp(a, b) != Greater
  }

  lemma {:induction false} StrCmpReverse(a: string, b: string)
    ensures StrCmp(b, a) == StrCmp(a, b).Reverse()
  {
    if a != [] && b != [] && a[0] == b[0] {
      StrCmpReverse(a[1..], b[1..]);
    }
  }

  lemma {:induction false} StrLeTransitive(a: string, b: string, c: string)
    requires StrLe(a, b) && StrLe(b, c)
    ensures StrLe(a, c)
  {
    if a != [] && b != [] && c != [] && a[0] == b[0] == c[0] {
      StrLeTransitive(a[1..], b[1..], c[1..]);
    }
  }
}
